=== FILE: README.md ===
# Quillium quiz and narration-script core, in Dafny

This project models the text-processing core of Quillium's backend module
`backend/app/mcq_generator.py` and proves properties of it:

- the quiz-item validator `validate_mcq`, together with the distractor filler
  `generate_meaningful_filler`;
- the templated fallback quiz `generate_fallback_mcqs`;
- the reply cleaner `clean_json_response`;
- the quiz pipeline `make_mcqs`, `generate_english_mcqs`,
  `translate_mcqs_to_language` and `make_flashcards`;
- the Quillium Shorts script generator `generate_short_form_script`, with its
  helpers `_sanitize_plain_text_script`, `_construct_shorts_prompt` and
  `_build_fallback_short_script`.

The Gemini model is not part of the model. Each call is replaced by what it
produced, passed in as a parameter:

- `EnglishReply` for the quiz-generation call;
- `setupFails` and a `seq<TranslationReply>`, indexed by item, for the
  translation calls;
- a function `respond` from the prompt to the reply text (or `None` when the
  call raises) for the narration-script calls.

The modules follow the program:

| module | file | models |
|---|---|---|
| `Wrappers` | wrappers.dfy | `Option` and `Result` |
| `Text` | text.dfy | the Python `str` operations the code uses: `isspace`, `lower`, `strip`, `split`, `in`, `re.sub(r"\s+", " ", s)`, list slicing |
| `Fillers` | fillers.dfy | `generate_meaningful_filler` |
| `JsonCleanup` | json_cleanup.dfy | `clean_json_response`, with the regular-expression search as a leftmost, shortest match |
| `Quiz` | quiz.dfy | `validate_mcq` as written (`ValidateMcq`) and corrected (`ValidateMcqFixed`) |
| `Fallback` | fallback.dfy | `generate_fallback_mcqs` |
| `Pipeline` | pipeline.dfy | `generate_english_mcqs`, `translate_mcqs_to_language`, `make_mcqs`, `make_flashcards` |
| `Shorts` | shorts.dfy | `_sanitize_plain_text_script`, `_construct_shorts_prompt`, `_build_fallback_short_script`, `generate_short_form_script` |

`ValidateMcq` returns `Rejected`, `Accepted(mcq)` or `Hangs`. The padding loop
at lines 359-364 is modelled exactly. Once a pass leaves the state unchanged,
every later pass does the same, so that outcome is `Hangs` rather than a
bounded number of retries. The quiz pipeline is modelled twice. The
as-written half (`ValidateAllAsWritten`, `GenerateEnglishMcqsAsWritten`,
`MakeMcqsAsWritten`) runs over `ValidateMcq`, and returns `None` when the
validator spins on an item. The corrected half (`ValidateAll`,
`GenerateEnglishMcqs`, `MakeMcqs`) runs over `ValidateMcqFixed` (see
Findings). Both share the branch structure of `make_mcqs` (`MakeMcqsWith`).
Lemmas tie the two together, and others show where they differ.

## Model

| member | source | states |
|---|---|---|
| Text.Strip | backend/app/mcq_generator.py:304 | `strip()` yields text with no blank at either end, never longer than the input |
| Text.StripTrims | backend/app/mcq_generator.py:304 | the result of `strip()` is a stretch of the input with only blanks removed before and after it |
| Text.StripStripped | backend/app/mcq_generator.py:341 | stripping text that has no blank at either end changes nothing |
| Text.LowerNoCapitals | backend/app/mcq_generator.py:345 | `lower()` leaves text without ASCII capitals unchanged |
| Text.ShorterThanAll | backend/app/mcq_generator.py:348 | a text shorter than every phrase contains none of them |
| Text.WordsAreWords | backend/app/mcq_generator.py:372 | every piece `split()` yields is a non-empty run of non-blank characters |
| Text.WordsEmptyIffBlank | backend/app/mcq_generator.py:372 | `split()` yields no word exactly when the text is all blanks |
| Text.CollapseIsJoin | backend/app/mcq_generator.py:592 | on text without leading blanks, `re.sub(r"\s+", " ", s)` is the words joined by single spaces, plus one space when the text ends in blanks |
| Text.CollapseStripped | backend/app/mcq_generator.py:592 | on stripped text the substitution equals `" ".join(s.split())` |
| Text.CollapseNormalized | backend/app/mcq_generator.py:592 | on stripped text the substitution yields stripped text whose only blanks are single spaces, never two in a row, and which is non-empty when the input is |
| Text.CollapseFixes | backend/app/mcq_generator.py:592 | the substitution leaves single-spaced text unchanged, so applying it twice equals applying it once |
| Text.Take | backend/app/mcq_generator.py:61 | `xs[:n]` is a prefix of `xs` of length `min(n, len(xs))` for `n >= 0`, and `max(len(xs) + n, 0)` for negative `n` |
| Fillers.GenerateMeaningfulFiller | backend/app/mcq_generator.py:387-410 | the filler is entry `index % 4` of the people list when the lower-cased question starts with "who", else of the capitals list when it contains "capital", else of the years list when it contains "year", "when" or "date", else of the generic list |
| Fillers.FillerListFacts | backend/app/mcq_generator.py:391-408 | each of the four lists holds four non-empty entries that differ ignoring case |
| Fillers.FillersDistinct | backend/app/mcq_generator.py:387-410 | fillers asked for at indices that differ modulo four differ ignoring case |
| Fillers.WhenQuestionFillers | backend/app/mcq_generator.py:399-401 | the question "when?" draws its fillers from the years list |
| JsonCleanup.StripFencesJson | backend/app/mcq_generator.py:282-290 | a reply wrapped in a "```json" fence loses exactly the fence and the surrounding blanks |
| JsonCleanup.StripFencesBare | backend/app/mcq_generator.py:284-290 | a reply wrapped in a bare "```" fence (not followed by "json") loses exactly the fence and the surrounding blanks |
| JsonCleanup.StripFencesPlain | backend/app/mcq_generator.py:282-290 | a reply without fences is only stripped |
| JsonCleanup.FindClose | backend/app/mcq_generator.py:293 | finds the end of the earliest `}`, blanks, `]` at or after a position, and no close ends sooner |
| JsonCleanup.MatchAt | backend/app/mcq_generator.py:293 | from a fixed start, returns the shortest span matching `\[\s*\{.*?\}\s*\]` when one exists |
| JsonCleanup.SearchFrom | backend/app/mcq_generator.py:293 | `re.search`: returns the leftmost start with its shortest end, and nothing exactly when no span matches |
| JsonCleanup.CleanJsonResponse | backend/app/mcq_generator.py:279-297 | the result is the fence-stripped reply when no span matches, and otherwise the first span `re.search` reports |
| Quiz.ShortNotVague | backend/app/mcq_generator.py:333-348 | every vague phrase has at least five characters, so an option shorter than that is never vague |
| Quiz.FindIgnoringCase | backend/app/mcq_generator.py:320-324 | finds the first option equal to the answer ignoring case, and returns nothing exactly when no option is |
| Quiz.ReconcileAnswer | backend/app/mcq_generator.py:318-327 | the answer is always an option: kept when it is one, else the first option equal to it ignoring case, else the first option |
| Quiz.TryAppendConsistent | backend/app/mcq_generator.py:352-356 | keeping an option only when its lower-cased form is unseen keeps `seen` equal to the lower-cased kept options, distinct ignoring case; the option is appended exactly when it is new |
| Quiz.CleanOptions | backend/app/mcq_generator.py:340-356 | after the cleaning loop, `seen` is exactly the set of lower-cased kept options, which are distinct ignoring case |
| Quiz.CleanOptionsGrows | backend/app/mcq_generator.py:340-356 | one more input option adds at most one kept option, at the end, and it is that option stripped |
| Quiz.CleanOptionsKept | backend/app/mcq_generator.py:340-356 | every kept option is a non-empty, non-vague, stripped input option, and no more options are kept than were given |
| Quiz.CleanOptionsComplete | backend/app/mcq_generator.py:340-356 | every input option that is non-empty and not vague once stripped is recorded, ignoring case |
| Quiz.CleanOptionsKeepsClean | backend/app/mcq_generator.py:340-356 | options already stripped, non-empty, not vague and distinct ignoring case pass through cleaning unchanged |
| Quiz.CleanOptionsIgnoresBlank | backend/app/mcq_generator.py:341-343 | options that strip to nothing change nothing |
| Quiz.PadAsWrittenHangs | backend/app/mcq_generator.py:359-364 | the padding loop as written never exits exactly when the filler for some index between the current count and four is already seen |
| Quiz.PadAsWrittenResult | backend/app/mcq_generator.py:359-364 | when the loop as written exits, it has appended the fillers at the indices from the current count up to four, and kept what was there |
| Quiz.PadAsWrittenConsistent | backend/app/mcq_generator.py:359-364 | the loop as written keeps `seen` equal to the lower-cased kept options |
| Quiz.DifficultyLabel | backend/app/mcq_generator.py:307 | a missing difficulty reads as "medium"; a label already stripped and in lower case is kept as is; the result has no capitals and is never longer than the input |
| Quiz.DifficultyLabelExample | backend/app/mcq_generator.py:307 | " Hard\n" reads as "hard" |
| Quiz.ResolveDifficulty | backend/app/mcq_generator.py:370-378 | the difficulty is always easy, medium or hard: a recognised label is kept, otherwise easy below 20 words of question and answer, hard from 40 |
| Quiz.PaddedShape | backend/app/mcq_generator.py:330-383 | cleaned options followed by fillers give four options, non-empty and distinct ignoring case, each a filler or a stripped, non-vague input option |
| Quiz.Assemble | backend/app/mcq_generator.py:366-385 | the answer is kept when it is among the cleaned options and replaced by the first option otherwise; the given options are returned; the difficulty is the stated one, stripped and lower-cased, when recognised, "medium" when absent, and otherwise set by the word count of question and final answer |
| Quiz.ValidateMcq | backend/app/mcq_generator.py:299-385 | the item is rejected exactly when it is not an object, its stripped question or answer is empty, or it has fewer than four options; an accepted item carries the stripped question and four options: the cleaned input options in input order, up to four, then the fillers for the question at their own indices |
| Quiz.ValidateMcqHangs | backend/app/mcq_generator.py:359-364 | the validator as written spins exactly when the item passes the shape checks and a filler it will ask for is already among the cleaned options |
| Quiz.ValidateMcqKeepsInput | backend/app/mcq_generator.py:303-385 | an item the as-written validator returns keeps the stated difficulty when it is recognised after strip and lower-case, has "medium" when the key is absent, and otherwise gets the word-count difficulty; its answer is the reconciled input answer whenever that is among the returned options |
| Quiz.ValidateMcqShape | backend/app/mcq_generator.py:330-385 | an accepted item has a stripped non-empty question, four non-empty options distinct ignoring case, each from the input or the fillers, and a recognised difficulty; the options are the first cleaned input options in order, then the fillers at their own indices; the answer is among the options when at most four options survive cleaning |
| Quiz.ValidateMcqHangsOnRepeat | backend/app/mcq_generator.py:359-364 | when only the first option survives and it equals the filler at index 1 ignoring case, the validator as written never returns |
| Quiz.ValidateMcqHangsExample | backend/app/mcq_generator.py:359-364 | "when?" with answer "1969" and options "1969", "", "", "" never returns |
| Quiz.ValidateMcqDropsLateAnswer | backend/app/mcq_generator.py:366-383 | with clean options and the answer at index four or later, the item is accepted with that answer, and the answer is not among the returned options |
| Quiz.ValidateMcqDropsAnswerExample | backend/app/mcq_generator.py:366-383 | options "a" to "e" with answer "e" come back without "e" among the options |
| Quiz.PadFixedFollowsAsWritten | backend/app/mcq_generator.py:359-364 | whenever the loop as written exits, the corrected loop, started at the same count, ends in the same state |
| Quiz.PadFixedFills | backend/app/mcq_generator.py:359-364 | the corrected loop reaches four options whenever the kept options plus the unseen fillers left to try number four |
| Quiz.PadFixedResult | backend/app/mcq_generator.py:359-364 | the corrected loop always ends with four options (or the more already kept), consistent, the kept ones first and then fillers |
| Quiz.ValidateMcqFixedKeepsInput | backend/app/mcq_generator.py:303-385 | the corrected validator keeps the difficulty in the same way; its answer is the reconciled input answer when that is among the returned options, and the first option otherwise |
| Quiz.ValidateMcqFixed | backend/app/mcq_generator.py:299-385 | the corrected validator rejects exactly the malformed shapes, and otherwise always returns a valid item whose answer is among its four options; these are the cleaned input options in input order, up to four, then fillers for the question |
| Quiz.FixedAgreesWithAsWritten | backend/app/mcq_generator.py:299-385 | wherever the validator as written returns and at most four options survive cleaning, the corrected one returns the same item |
| Fallback.SplitStops | backend/app/mcq_generator.py:416 | `re.split(r'[.!?]', s)` gives at least one piece, none containing a stop, the first a prefix of the text |
| Fallback.SplitRoundTrip | backend/app/mcq_generator.py:416 | the pieces rejoined with the stops give back the text, and there is one more piece than there are stops |
| Fallback.PieceOccurs | backend/app/mcq_generator.py:416 | every piece is a stretch of the text |
| Fallback.LongPieces | backend/app/mcq_generator.py:416 | the kept sentences are stripped and longer than twenty characters |
| Fallback.LongPiecesFrom | backend/app/mcq_generator.py:416 | each kept sentence is some piece, stripped |
| Fallback.LongPiecesComplete | backend/app/mcq_generator.py:416 | no piece longer than twenty characters once stripped is left out |
| Fallback.SentenceInText | backend/app/mcq_generator.py:416 | every sentence used is a stretch of the text, stripped and longer than twenty characters |
| Fallback.Excerpt | backend/app/mcq_generator.py:421-422 | a sentence up to 100 characters is shown whole; a longer one is cut to its first 100 characters followed by "..." |
| Fallback.FallbackItem | backend/app/mcq_generator.py:420-434 | the answer is the sentence, listed first among four options with the three fixed distractors; the difficulty is medium; the question embeds the excerpt |
| Fallback.FallbackMcqs | backend/app/mcq_generator.py:412-436 | exactly `min(max_questions, len(sentences))` items (none for a non-positive bound), item `i` built from sentence `i` |
| Fallback.FallbackItemsFromText | backend/app/mcq_generator.py:412-436 | every fallback item's answer is a stretch of the text longer than twenty characters and is its first option |
| Fallback.FallbackEmptyWhenNoSentence | backend/app/mcq_generator.py:416-436 | without a piece longer than twenty characters the fallback yields no items |
| Pipeline.CountSomeShaped | backend/app/mcq_generator.py:151-155 | the corrected validator keeps exactly the items of acceptable shape |
| Pipeline.ValidateAll | backend/app/mcq_generator.py:150-155 | with the corrected validator, one item per item of acceptable shape, each with four distinct options including its answer |
| Pipeline.GenerateEnglishMcqs | backend/app/mcq_generator.py:88-162 | with the corrected validator: nothing when the call fails; otherwise one well-formed item per acceptable item among the first `max_questions`, so never more than `max_questions` |
| Pipeline.AcceptEachHangs | backend/app/mcq_generator.py:151-155 | the validation loop never finishes exactly when the validator spins on one of the items |
| Pipeline.AcceptEachCount | backend/app/mcq_generator.py:151-155 | when the validator rejects exactly the malformed shapes, the loop keeps one item per item of acceptable shape |
| Pipeline.AcceptEachFrom | backend/app/mcq_generator.py:151-155 | every item the loop keeps is one the validator accepted |
| Pipeline.AcceptEachAgrees | backend/app/mcq_generator.py:151-155 | two validators that agree on every accepted and every rejected item give the same list |
| Pipeline.ValidateAllAsWritten | backend/app/mcq_generator.py:150-155 | with the validator as written, the loop spins exactly when some item makes the validator spin; otherwise it keeps one item per item of acceptable shape, each with four distinct non-empty options |
| Pipeline.ValidateAllAgrees | backend/app/mcq_generator.py:150-155 | where the loop as written finishes and no item keeps more than four options after cleaning, it returns what the corrected loop returns |
| Pipeline.GenerateEnglishMcqsAsWritten | backend/app/mcq_generator.py:88-162 | `generate_english_mcqs` as written. Nothing when the call fails. It never returns exactly when an item among the first `max_questions` makes the validator spin. Otherwise it gives one item per acceptable item, never more than `max_questions`, each with four distinct options |
| Pipeline.EnglishGenerationAgrees | backend/app/mcq_generator.py:88-162 | where generation as written returns and no item keeps more than four options after cleaning, it returns what the corrected generation returns |
| Pipeline.MakeMcqsAsWritten | backend/app/mcq_generator.py:16-86 | `make_mcqs` as written never returns exactly when the text is long enough, the key is set and generation spins; otherwise no items for short text, never more than `max_questions` |
| Pipeline.MakeMcqsAgrees | backend/app/mcq_generator.py:16-86 | where `make_mcqs` as written returns and no generated item keeps more than four options after cleaning, it returns what the corrected `make_mcqs` returns |
| Pipeline.EnglishAsWrittenFourOptions | backend/app/mcq_generator.py:16-86 | in English, every item `make_mcqs` as written returns has four options |
| Pipeline.EnglishDropsAnswer | backend/app/mcq_generator.py:151-155 | generation as written keeps the item with options "a" to "e" and answer "e", and its answer is not among its options |
| Pipeline.MakeMcqsDropsAnswer | backend/app/mcq_generator.py:16-86 | for any text long enough, `make_mcqs` as written in English returns that item with its answer outside its options |
| Pipeline.MakeMcqsHangs | backend/app/mcq_generator.py:16-86 | for any text long enough and a positive bound, `make_mcqs` as written never returns when the model's only item is the "when?"/"1969" item |
| Pipeline.TranslateOne | backend/app/mcq_generator.py:225-251 | a reply with a question, an answer and options, whose question differs ignoring case, replaces the item; any other reply leaves the item unchanged |
| Pipeline.TranslateMcqs | backend/app/mcq_generator.py:164-277 | one item per input item, in order. Items are unchanged for English or when setup fails. Otherwise item `i` is replaced by reply `i` exactly when that reply is adopted, and is kept otherwise |
| Pipeline.TranslateWithoutReplies | backend/app/mcq_generator.py:181-251 | without a usable reply for any item, translation changes nothing |
| Pipeline.Truncate | backend/app/mcq_generator.py:30-32 | text up to 6000 characters is kept; longer text keeps its first 6000 characters and ends with the truncation marker |
| Pipeline.MakeMcqs | backend/app/mcq_generator.py:16-86 | with the corrected validator: no items for stripped text under 50 characters, and never more than `max_questions` |
| Pipeline.TranslationNeverEmpty | backend/app/mcq_generator.py:65-80 | translating a non-empty list never yields an empty one, so the branch at 78-80 never runs |
| Pipeline.EnglishBranches | backend/app/mcq_generator.py:34-61 | in English, the result is the fallback quiz when the key is missing or no item is valid, and otherwise the first valid items |
| Pipeline.EnglishMcqsAnswerable | backend/app/mcq_generator.py:16-86 | with the corrected validator, in English, every returned item has four options including its answer (the code as written does not keep this; see `Pipeline.MakeMcqsDropsAnswer`) |
| Pipeline.FallbackAnswersFromText | backend/app/mcq_generator.py:34-50 | when the fallback is used, every answer is a stretch of the possibly truncated text |
| Pipeline.TranslatedLength | backend/app/mcq_generator.py:63-77 | in another language, one item per valid English item, each unchanged or with a question that differs ignoring case |
| Pipeline.MakeFlashcards | backend/app/mcq_generator.py:438-454 | card `i` is the question and answer of quiz item `i` |
| Pipeline.FlashcardPerItem | backend/app/mcq_generator.py:438-454 | with a non-negative bound, one card per quiz item |
| Shorts.LetterRunStops | backend/app/mcq_generator.py:587 | `[a-zA-Z]*` after the fence ends at the first non-letter |
| Shorts.RemoveFence | backend/app/mcq_generator.py:586-589 | removing the fence keeps the text stripped, and text without an opening fence is unchanged |
| Shorts.RemoveQuotes | backend/app/mcq_generator.py:590-591 | removing the quotes keeps the text stripped, and text not enclosed in double quotes is unchanged |
| Shorts.Sanitize | backend/app/mcq_generator.py:581-593 | a missing or empty reply gives ""; otherwise the result is the words of the reply, after the fence and quotes are removed, in order and joined by single spaces; so every result is stripped, with single spaces only and never two in a row |
| Shorts.SanitizeJoinsWords | backend/app/mcq_generator.py:581-593 | a reply with no fence and no enclosing quotes gives its words in order, joined by single spaces |
| Shorts.SanitizeFenced | backend/app/mcq_generator.py:581-593 | a fenced reply with a language tag gives the words of its body, joined by single spaces |
| Shorts.SanitizeQuoted | backend/app/mcq_generator.py:581-593 | a quoted reply gives the words between the quotes, joined by single spaces |
| Shorts.SanitizePlain | backend/app/mcq_generator.py:581-593 | text already stripped, single-spaced, unfenced and unquoted comes back unchanged |
| Shorts.FenceRemoved | backend/app/mcq_generator.py:586-589 | a fence with a language tag around a body gives back the body |
| Shorts.QuotesRemoved | backend/app/mcq_generator.py:590-591 | a stripped body in double quotes gives back the body |
| Shorts.Fill | backend/app/mcq_generator.py:560-577 | the pieces with the topic between them start with the first piece, followed by the topic when there are two or more pieces |
| Shorts.ShortsPrompt | backend/app/mcq_generator.py:558-579 | the prompt opens with the tutor instruction followed by the topic, and the strict prompt extends the plain one |
| Shorts.StrictPromptDiffers | backend/app/mcq_generator.py:573-577 | the strict prompt differs from the plain one |
| Shorts.ErrorScript | backend/app/mcq_generator.py:595-601 | the error message names the topic, or "this topic" for an empty one, between the fixed lead and tail |
| Shorts.RunAttempt | backend/app/mcq_generator.py:507-530 | a pass accepts only an acceptable sanitized reply to its own prompt, and raises exactly when the call raises |
| Shorts.ShortsLoop | backend/app/mcq_generator.py:506-550 | a script the loop returns contains the topic ignoring case, has 120 to 180 words and no banned phrase |
| Shorts.GenerateShortFormScriptWith | backend/app/mcq_generator.py:475-555 | a missing or blank topic is an error; otherwise the result is the error script (always, without a key) or an acceptable, single-spaced script |
| Shorts.GenerateShortFormScript | backend/app/mcq_generator.py:475-555 | the same, with the banned phrases of lines 487-498 and the prompts of lines 558-579 |
| Shorts.PlainReplyFirst | backend/app/mcq_generator.py:506-530 | an acceptable reply to the plain prompt is returned, sanitized |
| Shorts.StrictReplySecond | backend/app/mcq_generator.py:506-550 | after a rejected plain reply, an acceptable reply to the strict prompt is returned |
| Shorts.AtMostTwoPrompts | backend/app/mcq_generator.py:506-550 | the result depends only on the replies to the plain and the strict prompt, so at most those two are asked |
| Shorts.BothRejected | backend/app/mcq_generator.py:546-555 | when neither reply is acceptable, the error script is returned |
| Shorts.PlainRaises | backend/app/mcq_generator.py:506-555 | when the call with the plain prompt raises, the error script is returned, whatever the strict prompt would have drawn |

## Left out

- The Gemini calls (`generate_content`), `genai.configure`, the model names and the generation settings (temperature, token limits) are network I/O. They are replaced by the reply parameters described above.
- The prompt text of `generate_english_mcqs` (lines 94-124) and of the translation (lines 187-208) only goes to the model and is not modelled.
- `json.loads` is a library parser. A quiz reply that does not parse, or that parses to something other than a list, becomes `CallFailed`, which is where the source's exception handlers at lines 145-148 and 160-162 lead. A translation reply that does not parse becomes `Unusable`.
- JSON values that are not strings (a number as the question, `str(opt)` at line 341 on a non-string option) are not modelled: every field is a string or absent. So the exceptions such values cause are not modelled either. Two paths are affected:
  - A non-string field of a quiz item raises inside `validate_mcq` (`.strip()` at lines 304-307, `.lower()` at line 322). The exception leaves the loop at lines 151-155 and is caught at lines 160-162. The whole English batch then becomes `[]`, and `make_mcqs` falls back to the sentence quiz at line 50.
  - A non-string question in a translation reply raises at line 233 and is caught at lines 248-250, so the English item is kept.
- The first-question comparison at lines 259-261 cannot raise. Its question is either a validated English question or one whose `.lower()` already succeeded at line 233, and it only prints. The handler at lines 82-86 has no modelled cause.
- `lower()` maps only the ASCII capitals. Python also lower-cases other letters.
- Whitespace is the set of characters `str.isspace()` accepts. Python's `\s` and `strip()` use the same set.
- `print`, logging, `traceback`, the translation checks at lines 69-75 and 257-268 that only print, and the demo at lines 603-638 are side effects only.
- `init_translator` (lines 11-14) only prints. `translate_text` (lines 456-473) is a single model call with no logic beyond returning the input on failure.
- `backend/app/main.py` is routing and file handling around these functions and is not part of this model.
- The narration and caption playback engine is not among the source files and is not part of this model.
- `generate_short_form_script` is modelled with the model reply as a function of the prompt (`respond`), rather than as a list of replies. The two agree because at most two prompts are sent (`Shorts.AtMostTwoPrompts`), and they are different prompts (`Shorts.StrictPromptDiffers`).
- Shorts.Acceptable, Shorts.GenerateShortFormScriptWith, Shorts.RunAttempt and Shorts.ShortsLoop take the banned phrases and the prompt builder as parameters. `Shorts.GenerateShortFormScript` instantiates them with the source's constants.
- Quiz.ValidateMcqShape: the answer is promised to be among the options only when at most four options survive cleaning. Beyond that the source does not keep the promise (see Findings).
- Pipeline.EnglishMcqsAnswerable: covers only languages whose lower-cased name is "english". Translated items are the model's replies and carry no such guarantee.
- Shorts.ShortsPrompt: states the opening, the first placement of the topic and that the strict prompt extends the plain one. It does not state every placement of the topic.
- Pipeline.MakeMcqs: its own contract states only the length bounds. The branch structure is stated by `Pipeline.EnglishBranches`, `Pipeline.FallbackAnswersFromText` and `Pipeline.TranslatedLength`. It runs the corrected validator. `Pipeline.MakeMcqsAsWritten` is the code as written, and `Pipeline.MakeMcqsAgrees` says where the two coincide.
- Pipeline.CountSomeShaped, Pipeline.ValidateAll and Pipeline.GenerateEnglishMcqs: stated of the corrected validator. As written, the loop at 151-155 can spin or keep an answer outside the options. `Pipeline.ValidateAllAsWritten` and `Pipeline.GenerateEnglishMcqsAsWritten` state what it does instead.
- Pipeline.EnglishMcqsAnswerable: as written, the answer can fall outside the options (`Pipeline.MakeMcqsDropsAnswer`); only the four options survive (`Pipeline.EnglishAsWrittenFourOptions`).
- Pipeline.EnglishBranches, Pipeline.FallbackAnswersFromText, Pipeline.TranslatedLength, Pipeline.MakeFlashcards and Pipeline.FlashcardPerItem: stated of `make_mcqs` over the corrected validator. They carry over to the code as written wherever `Pipeline.MakeMcqsAgrees` applies.

## Findings

| source | as written | input that shows it | evidently intended | confidence | as-written member | corrected member |
|---|---|---|---|---|---|---|
| backend/app/mcq_generator.py:359-364 | the padding loop asks for the filler at index `len(cleaned_options)`, and appends nothing when that filler is already seen, so the index never changes and the loop never exits | question "when?", answer "1969", options ["1969", "", "", ""]: one option survives, and the filler at index 1 is "1969" again | try the next filler index on every pass, so four passes always yield four options | high (proved; not executed) | Quiz.ValidateMcqHangsExample | Quiz.ValidateMcqFixed |
| backend/app/mcq_generator.py:366-383 | the answer is checked against all cleaned options, then only the first four are returned | question "q?", answer "e", options ["a", "b", "c", "d", "e"]: the answer "e" is kept but the options returned are "a" to "d" | the returned answer is one of the returned options | high (proved; not executed) | Quiz.ValidateMcqDropsAnswerExample | Quiz.ValidateMcqFixed |

=== FILE: fallback.dfy ===
/**
 * `generate_fallback_mcqs`: the templated quiz built from the text itself when
 * the model cannot be used. The text is cut at every `.`, `!` and `?`; the
 * stripped pieces longer than twenty characters become the answers.
 */
module Fallback {
  import opened Wrappers
  import opened Text
  import opened Quiz

  /** The characters of the class `[.!?]`. */
  predicate IsStop(c: char) {
    c == '.' || c == '!' || c == '?'
  }

  predicate NoStop(s: string) {
    forall k :: 0 <= k < |s| ==> !IsStop(s[k])
  }

  /** The sentence-ending characters of `s`, in order. */
  function Stops(s: string): (r: seq<char>)
    ensures forall k :: 0 <= k < |r| ==> IsStop(r[k])
  {
    if s == [] then []
    else if IsStop(s[0]) then [s[0]] + Stops(s[1..])
    else Stops(s[1..])
  }

  /**
   * `re.split(r'[.!?]', s)`: the pieces between the stops, empty ones
   * included; there is always one more piece than there are stops.
   */
  function SplitStops(s: string): (pieces: seq<string>)
    ensures |pieces| >= 1
    ensures StartsWith(s, pieces[0])
    ensures forall k :: 0 <= k < |pieces| ==> NoStop(pieces[k])
  {
    if s == [] then [""]
    else
      var rest := SplitStops(s[1..]);
      if IsStop(s[0]) then [""] + rest
      else
        assert s[1..][..|rest[0]|] == rest[0];
        [[s[0]] + rest[0]] + rest[1..]
  }

  /** Puts the stops back between the pieces. */
  function Rejoin(pieces: seq<string>, stops: seq<char>): string
    requires |pieces| == |stops| + 1
  {
    if stops == [] then pieces[0]
    else pieces[0] + [stops[0]] + Rejoin(pieces[1..], stops[1..])
  }

  /** Rejoining after a piece grew by one leading character. */
  lemma RejoinCons(c: char, rest: seq<string>, stops: seq<char>)
    requires |rest| == |stops| + 1
    ensures Rejoin([[c] + rest[0]] + rest[1..], stops) == [c] + Rejoin(rest, stops)
  {
    if stops != [] {
      var pieces := [[c] + rest[0]] + rest[1..];
      assert pieces[1..] == rest[1..];
      assert ([c] + rest[0]) + [stops[0]] + Rejoin(rest[1..], stops[1..])
          == [c] + (rest[0] + [stops[0]] + Rejoin(rest[1..], stops[1..]));
    }
  }

  /** Splitting loses nothing: the pieces, rejoined with the stops, give back the text. */
  lemma {:induction false} SplitRoundTrip(s: string)
    ensures |SplitStops(s)| == |Stops(s)| + 1
    ensures Rejoin(SplitStops(s), Stops(s)) == s
  {
    if s != [] {
      var c, tail := s[0], s[1..];
      SplitRoundTrip(tail);
      var rest, stops := SplitStops(tail), Stops(tail);
      assert s == [c] + tail;
      if IsStop(c) {
        assert ([""] + rest)[1..] == rest;
      } else {
        RejoinCons(c, rest, stops);
      }
    }
  }

  /** Occurrence is transitive: a stretch of a stretch of `a` is a stretch of `a`. */
  lemma OccursWithin(a: string, b: string, c: string, i: int, j: int)
    requires OccursAt(a, b, i) && OccursAt(b, c, j)
    ensures OccursAt(a, c, i + j)
  {
    assert forall k :: 0 <= k < |c| ==> a[i + j + k] == b[j + k] == c[k];
  }

  /** Every piece of the split is a stretch of the text. */
  lemma {:induction false} PieceOccurs(s: string, m: nat)
    requires m < |SplitStops(s)|
    ensures Contains(s, SplitStops(s)[m])
  {
    var p := SplitStops(s)[m];
    if s == [] || m == 0 {
      assert OccursAt(s, p, 0);
    } else {
      var rest := SplitStops(s[1..]);
      var m' := if IsStop(s[0]) then m - 1 else m;
      PieceOccurs(s[1..], m');
      var k :| 0 <= k <= |s[1..]| - |p| && OccursAt(s[1..], p, k);
      OccursWithin(s, s[1..], p, 1, k);
    }
  }

  /** `s.strip()` is a stretch of `s`. */
  lemma StripOccurs(s: string)
    ensures Contains(s, Strip(s))
  {
    var i := FirstNonBlank(s, 0);
    assert OccursAt(s, Strip(s), i);
  }

  /**
   * The list comprehension at 416: the stripped pieces whose length exceeds
   * twenty, in order.
   */
  function LongPieces(pieces: seq<string>): (r: seq<string>)
    ensures |r| <= |pieces|
    ensures forall k :: 0 <= k < |r| ==> |r[k]| > 20 && Stripped(r[k])
  {
    if pieces == [] then []
    else
      var rest := LongPieces(pieces[1..]);
      var s := Strip(pieces[0]);
      if |s| > 20 then [s] + rest else rest
  }

  /** Every kept sentence is the stripped form of one of the pieces. */
  lemma {:induction false} LongPiecesFrom(pieces: seq<string>, k: nat)
    requires k < |LongPieces(pieces)|
    ensures exists m | 0 <= m < |pieces| :: LongPieces(pieces)[k] == Strip(pieces[m])
  {
    var rest := LongPieces(pieces[1..]);
    if |Strip(pieces[0])| > 20 && k == 0 {
      assert LongPieces(pieces)[0] == Strip(pieces[0]);
    } else {
      var k' := if |Strip(pieces[0])| > 20 then k - 1 else k;
      LongPiecesFrom(pieces[1..], k');
      var m :| 0 <= m < |pieces[1..]| && rest[k'] == Strip(pieces[1..][m]);
      assert LongPieces(pieces)[k] == Strip(pieces[m + 1]);
    }
  }

  /** No long piece is left out. */
  lemma {:induction false} LongPiecesComplete(pieces: seq<string>, m: nat)
    requires m < |pieces| && |Strip(pieces[m])| > 20
    ensures Strip(pieces[m]) in LongPieces(pieces)
  {
    if m > 0 {
      LongPiecesComplete(pieces[1..], m - 1);
      assert pieces[1..][m - 1] == pieces[m];
    }
  }

  /** The candidate sentences of `text`. */
  function Sentences(text: string): seq<string> {
    LongPieces(SplitStops(text))
  }

  /** Every sentence the fallback uses is a stretch of the text, longer than twenty characters. */
  lemma SentenceInText(text: string, k: nat)
    requires k < |Sentences(text)|
    ensures |Sentences(text)[k]| > 20 && Stripped(Sentences(text)[k])
    ensures Contains(text, Sentences(text)[k])
  {
    var pieces := SplitStops(text);
    var s := Sentences(text)[k];
    LongPiecesFrom(pieces, k);
    var m :| 0 <= m < |pieces| && s == Strip(pieces[m]);
    PieceOccurs(text, m);
    StripOccurs(pieces[m]);
    var i :| 0 <= i <= |text| - |pieces[m]| && OccursAt(text, pieces[m], i);
    var j :| 0 <= j <= |pieces[m]| - |s| && OccursAt(pieces[m], s, j);
    OccursWithin(text, pieces[m], s, i, j);
  }

  /** The sentence as shown inside the question: its first hundred characters, and "..." if it was longer. */
  function Excerpt(sentence: string): (r: string)
    ensures |sentence| <= 100 ==> r == sentence
    ensures |sentence| > 100 ==> |r| == 103 && EndsWith(r, "...")
    ensures StartsWith(r, sentence[..if |sentence| <= 100 then |sentence| else 100])
  {
    if |sentence| > 100 then sentence[..100] + "..." else sentence
  }

  const QuestionLead: string := "What is the main idea of: '"
  const FixedDistractors: seq<string> := [
    "A different concept from the text",
    "An alternative interpretation",
    "Related information"
  ]

  /** The item built for one sentence (lines 420-434). */
  function FallbackItem(sentence: string): (m: Mcq)
    ensures m.answer == sentence && |m.options| == 4 && m.options[0] == sentence
    ensures m.options[1..] == FixedDistractors
    ensures m.difficulty == Some("medium")
    ensures StartsWith(m.question, QuestionLead) && OccursAt(m.question, Excerpt(sentence), |QuestionLead|)
  {
    var q := QuestionLead + Excerpt(sentence) + "'?";
    assert q[..|QuestionLead|] == QuestionLead;
    assert q[|QuestionLead|..|QuestionLead| + |Excerpt(sentence)|] == Excerpt(sentence);
    Mcq(q, sentence, [sentence] + FixedDistractors, Some("medium"))
  }

  /**
   * `generate_fallback_mcqs`: one item per sentence, for the first
   * `min(max_questions, len(sentences))` sentences, then sliced to
   * `max_questions` (which, with a negative bound, leaves nothing to drop).
   */
  function FallbackMcqs(text: string, maxQuestions: int): (r: seq<Mcq>)
    ensures var n := |Sentences(text)|;
      |r| == if maxQuestions <= 0 then 0 else if maxQuestions < n then maxQuestions else n
    ensures forall i :: 0 <= i < |r| ==> r[i] == FallbackItem(Sentences(text)[i])
  {
    var sentences := Sentences(text);
    var n := if maxQuestions <= 0 then 0 else if maxQuestions < |sentences| then maxQuestions else |sentences|;
    var items := seq(n, i requires 0 <= i < n => FallbackItem(sentences[i]));
    Take(items, maxQuestions)
  }

  /**
   * Every fallback item takes its answer from the text, lists it first among
   * four options, and is marked medium.
   */
  lemma FallbackItemsFromText(text: string, maxQuestions: int, i: nat)
    requires i < |FallbackMcqs(text, maxQuestions)|
    ensures var m := FallbackMcqs(text, maxQuestions)[i];
      && Contains(text, m.answer) && |m.answer| > 20
      && m.answer in m.options && m.options[0] == m.answer && |m.options| == 4
      && m.difficulty == Some("medium")
  {
    SentenceInText(text, i);
  }

  /** A text with no long sentence yields no fallback items. */
  lemma FallbackEmptyWhenNoSentence(text: string, maxQuestions: int)
    requires forall m :: 0 <= m < |SplitStops(text)| ==> |Strip(SplitStops(text)[m])| <= 20
    ensures FallbackMcqs(text, maxQuestions) == []
  {
    if Sentences(text) != [] {
      LongPiecesFrom(SplitStops(text), 0);
    }
  }
}

=== FILE: fillers.dfy ===
/**
 * `generate_meaningful_filler`: the distractor chosen for a question, from one
 * of four fixed lists picked by what the question asks about.
 */
module Fillers {
  import opened Text

  /** The four distractor lists of lines 391-408. */
  const People: seq<string> := ["Alan Turing", "Isaac Newton", "Marie Curie", "Charles Darwin"]
  const Capitals: seq<string> := ["London", "Berlin", "Tokyo", "Beijing"]
  const Years: seq<string> := ["1945", "1969", "1776", "2001"]
  const Generic: seq<string> := [
    "A related concept from the same field",
    "An important but different aspect",
    "A frequently confused alternative",
    "A similar but distinct element"
  ]

  predicate AsksWho(question: string) {
    StartsWith(Lower(question), "who")
  }

  predicate AsksCapital(question: string) {
    Contains(Lower(question), "capital")
  }

  /** The words whose presence marks a question about a date (line 399). */
  const DateWords: seq<string> := ["year", "when", "date"]

  predicate AsksDate(question: string) {
    MentionsAny(Lower(question), DateWords)
  }

  /** The four distractor lists, in the order `generate_meaningful_filler` tests for them. */
  const FillerLists: seq<seq<string>> := [People, Capitals, Years, Generic]

  /** Which list the question selects: people, capitals, years, or the generic one. */
  function Category(question: string): (c: nat)
    ensures c < 4
  {
    if AsksWho(question) then 0
    else if AsksCapital(question) then 1
    else if AsksDate(question) then 2
    else 3
  }

  /** The list of four distractors chosen for `question`. */
  function FillerList(question: string): (list: seq<string>)
    ensures |list| == 4
  {
    FillerLists[Category(question)]
  }

  /**
   * `generate_meaningful_filler`: the distractor at `index` modulo four of the
   * list chosen by the question; `answer` is accepted and ignored.
   */
  function GenerateMeaningfulFiller(question: string, answer: string, index: nat): (filler: string)
    ensures AsksWho(question) ==> filler == People[index % 4]
    ensures !AsksWho(question) && AsksCapital(question) ==> filler == Capitals[index % 4]
    ensures !AsksWho(question) && !AsksCapital(question) && AsksDate(question) ==> filler == Years[index % 4]
    ensures !AsksWho(question) && !AsksCapital(question) && !AsksDate(question) ==> filler == Generic[index % 4]
  {
    FillerList(question)[index % 4]
  }

  /** Two strings whose lower-cased characters differ at `k` differ once lower-cased. */
  lemma LowerDiffersAt(a: string, b: string, k: nat)
    requires k < |a| && k < |b| && LowerChar(a[k]) != LowerChar(b[k])
    ensures Lower(a) != Lower(b)
  {
    assert Lower(a)[k] != Lower(b)[k];
  }

  /** A four-element list whose entries differ, ignoring case, at position `k`. */
  lemma DistinctByColumn(list: seq<string>, k: nat)
    requires |list| == 4
    requires forall i :: 0 <= i < 4 ==> k < |list[i]|
    requires forall i, j :: 0 <= i < j < 4 ==> LowerChar(list[i][k]) != LowerChar(list[j][k])
    ensures DistinctIgnoringCase(list)
  {
    forall i, j | 0 <= i < j < 4 ensures Lower(list[i]) != Lower(list[j]) {
      LowerDiffersAt(list[i], list[j], k);
    }
  }

  /** Each filler list holds four non-empty distractors that differ ignoring case. */
  lemma {:induction false} FillerListFacts(question: string)
    ensures DistinctIgnoringCase(FillerList(question))
    ensures forall k :: 0 <= k < 4 ==> FillerList(question)[k] != []
  {
    if AsksWho(question) {
      DistinctByColumn(People, 0);
    } else if AsksCapital(question) {
      DistinctByColumn(Capitals, 2);
    } else if AsksDate(question) {
      DistinctByColumn(Years, 2);
    } else {
      DistinctByColumn(Generic, 2);
    }
  }

  /** Fillers at indices that differ modulo four differ ignoring case. */
  lemma FillersDistinct(question: string, answer: string, i: nat, j: nat)
    requires i % 4 != j % 4
    ensures Lower(GenerateMeaningfulFiller(question, answer, i)) != Lower(GenerateMeaningfulFiller(question, answer, j))
  {
    FillerListFacts(question);
    var list := FillerList(question);
    if i % 4 < j % 4 {
      assert Lower(list[i % 4]) != Lower(list[j % 4]);
    } else {
      assert Lower(list[j % 4]) != Lower(list[i % 4]);
    }
  }

  /** The question "when?" draws its fillers from the list of years. */
  lemma WhenQuestionFillers()
    ensures FillerList("when?") == Years
  {
    var q := "when?";
    LowerNoCapitals(q);
    assert !StartsWith(q, "who") by { assert q[..3][2] == 'e'; }
    assert OccursAt(q, "when", 0) by { assert q[0..4] == "when"; }
  }
}

=== FILE: json_cleanup.dfy ===
/**
 * `clean_json_response`: turns a model reply into the text handed to the JSON
 * parser. A Markdown code fence is removed, the text is stripped, and when the
 * text contains a span matching the regular expression `\[\s*\{.*?\}\s*\]`
 * (with `.` matching newlines) the first such span is kept.
 */
module JsonCleanup {
  import opened Wrappers
  import opened Text

  /** Removes an opening "```json" or "```" fence and a closing "```" fence, then strips. */
  function StripFences(raw: string): string
  {
    var afterOpen := if StartsWith(raw, "```json") then raw[7..]
                  else if StartsWith(raw, "```") then raw[3..]
                  else raw;
    var closed := if EndsWith(afterOpen, "```") then afterOpen[..|afterOpen| - 3] else afterOpen;
    Strip(closed)
  }

  /** A reply wrapped in a "```json" fence loses exactly the fence and the surrounding blanks. */
  lemma StripFencesJson(body: string)
    ensures StripFences("```json" + body + "```") == Strip(body)
  {
    var raw := "```json" + body + "```";
    assert raw[..7] == "```json";
    assert raw[7..] == body + "```";
    assert (body + "```")[..|body|] == body;
  }

  /** A reply wrapped in a bare "```" fence loses exactly the fence and the surrounding blanks. */
  lemma StripFencesBare(body: string)
    requires !StartsWith(body, "json")
    ensures StripFences("```" + body + "```") == Strip(body)
  {
    var raw := "```" + body + "```";
    assert raw[..3] == "```";
    assert !StartsWith(raw, "```json") by {
      if |body| >= 4 {
        assert raw[3..7] == body[..4];
      } else if |raw| >= 7 {
        assert raw[3 + |body|] == '`';
        assert raw[..7][3 + |body|] == raw[3 + |body|];
      }
    }
    assert raw[3..] == body + "```";
    assert (body + "```")[..|body|] == body;
  }

  /** A reply without fences is only stripped. */
  lemma StripFencesPlain(raw: string)
    requires !StartsWith(raw, "```") && !EndsWith(raw, "```")
    ensures StripFences(raw) == Strip(raw)
  {
    assert !StartsWith(raw, "```json") by {
      if |raw| >= 7 {
        assert raw[..3] == raw[..7][..3];
      }
    }
  }

  /** `s[i..j]` is `[`, a run of blanks, then `{` at position `j`. */
  predicate OpensAt(s: string, i: int, j: int) {
    0 <= i < j < |s| && s[i] == '[' && AllSpace(s[i + 1..j]) && s[j] == '{'
  }

  /** `s[p..e]` is `}`, a run of blanks, then `]` at position `e - 1`. */
  predicate ClosesAt(s: string, p: int, e: int) {
    0 <= p && p + 1 < e <= |s| && s[p] == '}' && AllSpace(s[p + 1..e - 1]) && s[e - 1] == ']'
  }

  /** `s[i..e]` matches `\[\s*\{.*?\}\s*\]`: the characters between `{` and `}` are arbitrary. */
  ghost predicate IsMatch(s: string, i: int, e: int) {
    exists j, p :: OpensAt(s, i, j) && ClosesAt(s, p, e) && j < p
  }

  /** `s[i..e]` is the match `re.search` reports: the leftmost start, then the shortest end. */
  ghost predicate FirstMatch(s: string, i: int, e: int) {
    && IsMatch(s, i, e)
    && (forall i', e' :: IsMatch(s, i', e') ==> i < i' || (i == i' && e <= e'))
  }

  /** The first non-blank position at or after `k`. */
  function SkipBlanks(s: string, k: nat): (r: nat)
    requires k <= |s|
    ensures k <= r <= |s| && AllSpace(s[k..r])
    ensures r == |s| || !IsSpace(s[r])
    decreases |s| - k
  {
    if k < |s| && IsSpace(s[k]) then
      var r := SkipBlanks(s, k + 1);
      assert s[k..r] == [s[k]] + s[k + 1..r];
      r
    else k
  }

  /** Any run of blanks starting at `k` ends at or before the first non-blank. */
  lemma BlanksEndBySkip(s: string, k: nat, m: nat)
    requires k <= m < |s| && AllSpace(s[k..m]) && !IsSpace(s[m])
    ensures SkipBlanks(s, k) == m
  {
    var r := SkipBlanks(s, k);
    assert forall t :: k <= t < m ==> IsSpace(s[t]) by {
      forall t | k <= t < m ensures IsSpace(s[t]) { assert s[k..m][t - k] == s[t]; }
    }
    assert forall t :: k <= t < r ==> IsSpace(s[t]) by {
      forall t | k <= t < r ensures IsSpace(s[t]) { assert s[k..r][t - k] == s[t]; }
    }
  }

  /** The end of the shortest `\}\s*\]` whose `}` lies at or after `p`. */
  function FindClose(s: string, p: nat): (r: Option<nat>)
    requires p <= |s|
    ensures r.Some? ==> exists q :: p <= q && ClosesAt(s, q, r.value)
    ensures forall q, e :: p <= q && ClosesAt(s, q, e) ==> r.Some? && r.value <= e
    decreases |s| - p
  {
    if p == |s| then None
    else
      var q := SkipBlanks(s, p + 1);
      if s[p] == '}' && q < |s| && s[q] == ']' then
        assert ClosesAt(s, p, q + 1);
        CloseIsShortest(s, p, q);
        Some(q + 1)
      else
        var r := FindClose(s, p + 1);
        NoCloseHere(s, p);
        r
  }

  /** A `}` at `p` followed by blanks and `]` at `q` closes no later than any close at or after `p`. */
  lemma CloseIsShortest(s: string, p: nat, q: nat)
    requires p < q < |s| && s[p] == '}' && q == SkipBlanks(s, p + 1) && s[q] == ']'
    ensures forall p', e :: p <= p' && ClosesAt(s, p', e) ==> q + 1 <= e
  {
    assert forall t :: p + 1 <= t < q ==> IsSpace(s[t]) by {
      forall t | p + 1 <= t < q ensures IsSpace(s[t]) { assert s[p + 1..q][t - p - 1] == s[t]; }
    }
    forall p', e | p <= p' && ClosesAt(s, p', e) ensures q + 1 <= e {
      if p' == p {
        BlanksEndBySkip(s, p + 1, e - 1);
      }
    }
  }

  /** When the test in `FindClose` fails at `p`, no close starts at `p`. */
  lemma NoCloseHere(s: string, p: nat)
    requires p < |s|
    requires var q := SkipBlanks(s, p + 1); !(s[p] == '}' && q < |s| && s[q] == ']')
    ensures forall e :: !ClosesAt(s, p, e)
  {
    forall e | ClosesAt(s, p, e) ensures false {
      BlanksEndBySkip(s, p + 1, e - 1);
    }
  }

  /** The end of the shortest match starting at `i`, if any. */
  function MatchAt(s: string, i: nat): (r: Option<nat>)
    requires i < |s|
    ensures r.Some? ==> IsMatch(s, i, r.value)
    ensures forall e :: IsMatch(s, i, e) ==> r.Some? && r.value <= e
  {
    var j := SkipBlanks(s, i + 1);
    OpenIsUnique(s, i, j);
    if s[i] == '[' && j < |s| && s[j] == '{' then
      var r := FindClose(s, j + 1);
      assert OpensAt(s, i, j);
      r
    else None
  }

  /** The blanks after `[` determine where the `{` must be. */
  lemma OpenIsUnique(s: string, i: nat, j: nat)
    requires i < |s| && j == SkipBlanks(s, i + 1)
    ensures forall j' :: OpensAt(s, i, j') ==> j' == j
  {
    forall j' | OpensAt(s, i, j') ensures j' == j {
      BlanksEndBySkip(s, i + 1, j');
    }
  }

  /** `re.search` from position `i` onwards: the leftmost start and its shortest end. */
  function SearchFrom(s: string, i: nat): (r: Option<(nat, nat)>)
    requires i <= |s|
    ensures r.Some? ==> i <= r.value.0 && IsMatch(s, r.value.0, r.value.1)
    ensures r.Some? ==> forall i', e' :: i <= i' && IsMatch(s, i', e') ==> r.value.0 < i' || (r.value.0 == i' && r.value.1 <= e')
    ensures r.None? ==> forall i', e' :: i <= i' ==> !IsMatch(s, i', e')
    decreases |s| - i
  {
    if i == |s| then None
    else
      match MatchAt(s, i)
      case Some(e) => Some((i, e))
      case None => SearchFrom(s, i + 1)
  }

  /** `clean_json_response`. */
  function CleanJsonResponse(raw: string): (r: string)
    ensures var t := StripFences(raw);
      (forall i, e :: !IsMatch(t, i, e)) ==> r == t
    ensures var t := StripFences(raw);
      (exists i, e :: IsMatch(t, i, e)) ==> exists i, e :: FirstMatch(t, i, e) && r == t[i..e]
  {
    var t := StripFences(raw);
    match SearchFrom(t, 0)
    case Some((i, e)) =>
      assert FirstMatch(t, i, e);
      t[i..e]
    case None => t
  }
}

=== FILE: pipeline.dfy ===
/**
 * The quiz pipeline: `generate_english_mcqs`, `translate_mcqs_to_language`,
 * `make_mcqs` and `make_flashcards`. The language model is not part of the
 * model: each call is replaced by the reply it produced, already passed
 * through `clean_json_response` and `json.loads`, given as a parameter.
 */
module Pipeline {
  import opened Wrappers
  import opened Text
  import opened Quiz
  import opened Fallback

  /**
   * The outcome of the quiz-generation call: the call or the JSON parse
   * raised (lines 145-148 and 160-162), or the parsed list of items.
   */
  datatype EnglishReply = CallFailed | Parsed(items: seq<RawMcq>)

  /** Applies `f` to every element and keeps the values it returns, in order. */
  function KeepSome<A, B>(f: A -> Option<B>, xs: seq<A>): (r: seq<B>)
    ensures |r| <= |xs|
  {
    if xs == [] then []
    else
      var rest := KeepSome(f, xs[1..]);
      match f(xs[0])
      case Some(y) => [y] + rest
      case None => rest
  }

  /** Every value kept is `f`'s value for one of the elements. */
  lemma {:induction false} KeepSomeFrom<A, B>(f: A -> Option<B>, xs: seq<A>, k: nat)
    requires k < |KeepSome(f, xs)|
    ensures exists j | 0 <= j < |xs| :: f(xs[j]) == Some(KeepSome(f, xs)[k])
  {
    var rest := KeepSome(f, xs[1..]);
    if f(xs[0]).Some? && k == 0 {
      assert f(xs[0]) == Some(KeepSome(f, xs)[0]);
    } else {
      var k' := if f(xs[0]).Some? then k - 1 else k;
      KeepSomeFrom(f, xs[1..], k');
      var j :| 0 <= j < |xs[1..]| && f(xs[1..][j]) == Some(rest[k']);
      assert f(xs[j + 1]) == Some(KeepSome(f, xs)[k]);
    }
  }

  /** The number of elements `f` returns a value for. */
  function CountSome<A, B>(f: A -> Option<B>, xs: seq<A>): nat {
    if xs == [] then 0
    else (if f(xs[0]).Some? then 1 else 0) + CountSome(f, xs[1..])
  }

  /** One value is kept per element `f` returns a value for. */
  lemma {:induction false} KeepSomeCount<A, B>(f: A -> Option<B>, xs: seq<A>)
    ensures |KeepSome(f, xs)| == CountSome(f, xs)
  {
    if xs != [] {
      KeepSomeCount(f, xs[1..]);
    }
  }

  /** Items the validator does not reject on their shape. */
  function CountShaped(items: seq<RawMcq>): (n: nat)
    ensures n <= |items|
  {
    if items == [] then 0
    else (if RejectsShape(items[0]) then 0 else 1) + CountShaped(items[1..])
  }

  /** The validator returns a value for exactly the items with an acceptable shape. */
  lemma {:induction false} CountSomeShaped(items: seq<RawMcq>)
    ensures CountSome(ValidateMcqFixed, items) == CountShaped(items)
  {
    if items != [] {
      CountSomeShaped(items[1..]);
    }
  }

  /** The loop at 151-155: validate each item and keep the ones the validator returns. */
  function ValidateAll(items: seq<RawMcq>): (r: seq<Mcq>)
    ensures |r| == CountShaped(items)
    ensures forall k :: 0 <= k < |r| ==> WellFormed(r[k])
  {
    var r := KeepSome(ValidateMcqFixed, items);
    KeepSomeCount(ValidateMcqFixed, items);
    CountSomeShaped(items);
    assert forall k :: 0 <= k < |r| ==> WellFormed(r[k]) by {
      forall k | 0 <= k < |r| ensures WellFormed(r[k]) {
        KeepSomeFrom(ValidateMcqFixed, items, k);
      }
    }
    r
  }

  /**
   * `generate_english_mcqs`: nothing when the call fails, else the validated
   * items among the first `max_questions` parsed ones.
   */
  function GenerateEnglishMcqs(reply: EnglishReply, maxQuestions: int): (r: seq<Mcq>)
    ensures reply.CallFailed? ==> r == []
    ensures reply.Parsed? ==> |r| == CountShaped(Take(reply.items, maxQuestions))
    ensures maxQuestions >= 0 ==> |r| <= maxQuestions
    ensures forall k :: 0 <= k < |r| ==> WellFormed(r[k])
  {
    match reply
    case CallFailed => []
    case Parsed(items) => ValidateAll(Take(items, maxQuestions))
  }

  /**
   * The loop at 151-155 with the validator as a parameter: `None` when the
   * loop reaches an item on which the validator never returns, else the
   * items it accepts, in order.
   */
  function AcceptEach(validate: RawMcq -> Validation, items: seq<RawMcq>): (r: Option<seq<Mcq>>)
    ensures r.Some? ==> |r.value| <= |items|
  {
    if items == [] then Some([])
    else
      var rest := AcceptEach(validate, items[1..]);
      match validate(items[0])
      case Hangs => None
      case Rejected => rest
      case Accepted(m) => if rest.None? then None else Some([m] + rest.value)
  }

  /** The loop never finishes exactly when the validator spins on one of the items. */
  lemma {:induction false} AcceptEachHangs(validate: RawMcq -> Validation, items: seq<RawMcq>)
    ensures AcceptEach(validate, items).None? <==> exists k :: 0 <= k < |items| && validate(items[k]).Hangs?
  {
    if items != [] {
      var tail := items[1..];
      AcceptEachHangs(validate, tail);
      if exists k :: 0 <= k < |tail| && validate(tail[k]).Hangs? {
        var k :| 0 <= k < |tail| && validate(tail[k]).Hangs?;
        assert items[k + 1] == tail[k];
      }
      if exists k :: 0 <= k < |items| && validate(items[k]).Hangs? {
        var k :| 0 <= k < |items| && validate(items[k]).Hangs?;
        if k > 0 {
          assert tail[k - 1] == items[k];
        }
      }
    }
  }

  /** A validator that rejects exactly the malformed shapes keeps one item per well-shaped item. */
  lemma {:induction false} AcceptEachCount(validate: RawMcq -> Validation, items: seq<RawMcq>)
    requires forall raw :: validate(raw).Rejected? <==> RejectsShape(raw)
    requires AcceptEach(validate, items).Some?
    ensures |AcceptEach(validate, items).value| == CountShaped(items)
  {
    if items != [] {
      AcceptEachCount(validate, items[1..]);
    }
  }

  /** Every item the loop keeps is one the validator accepted. */
  lemma {:induction false} AcceptEachFrom(validate: RawMcq -> Validation, items: seq<RawMcq>, k: nat)
    requires AcceptEach(validate, items).Some? && k < |AcceptEach(validate, items).value|
    ensures exists j :: 0 <= j < |items| && validate(items[j]) == Accepted(AcceptEach(validate, items).value[k])
  {
    var tail := items[1..];
    var r := AcceptEach(validate, items).value;
    if validate(items[0]).Accepted? && k == 0 {
      assert validate(items[0]) == Accepted(r[0]);
    } else {
      var k' := if validate(items[0]).Accepted? then k - 1 else k;
      AcceptEachFrom(validate, tail, k');
      var j :| 0 <= j < |tail| && validate(tail[j]) == Accepted(AcceptEach(validate, tail).value[k']);
      assert validate(items[j + 1]) == Accepted(r[k]);
    }
  }

  /** The loop over a single item. */
  lemma AcceptOne(validate: RawMcq -> Validation, x: RawMcq)
    ensures validate(x).Accepted? ==> AcceptEach(validate, [x]) == Some([validate(x).mcq])
    ensures validate(x).Hangs? ==> AcceptEach(validate, [x]) == None
  {
    assert [x][1..] == [];
    assert AcceptEach(validate, [x][1..]) == Some([]);
    if validate(x).Accepted? {
      assert [validate(x).mcq] + [] == [validate(x).mcq];
    }
  }

  /** The loop at 151-155 over the validator as written. */
  function ValidateAllAsWritten(items: seq<RawMcq>): (r: Option<seq<Mcq>>)
    ensures r.None? <==> exists k :: 0 <= k < |items| && ValidateMcq(items[k]).Hangs?
    ensures r.Some? ==> |r.value| == CountShaped(items)
    ensures r.Some? ==> forall k :: 0 <= k < |r.value| ==> ValidShape(r.value[k])
  {
    var r := AcceptEach(ValidateMcq, items);
    AcceptEachHangs(ValidateMcq, items);
    if r.None? then r
    else
      AcceptEachCount(ValidateMcq, items);
      assert forall k :: 0 <= k < |r.value| ==> ValidShape(r.value[k]) by {
        forall k | 0 <= k < |r.value| ensures ValidShape(r.value[k]) {
          AcceptEachFrom(ValidateMcq, items, k);
          var j :| 0 <= j < |items| && ValidateMcq(items[j]) == Accepted(r.value[k]);
          ValidateMcqShape(items[j]);
        }
      }
      r
  }

  /** Every item of the list has at most four options left once they are cleaned. */
  predicate FewOptions(items: seq<RawMcq>) {
    forall k :: 0 <= k < |items| && items[k].Object? && items[k].options.Some? ==>
      |CleanOptions(VagueTerms, items[k].options.value).kept| <= 4
  }

  /**
   * Two validators that agree on every item the first accepts or rejects give
   * the same list, wherever the loop over the first finishes.
   */
  lemma {:induction false} AcceptEachAgrees(validate: RawMcq -> Validation, fixed: RawMcq -> Option<Mcq>, items: seq<RawMcq>)
    requires AcceptEach(validate, items).Some?
    requires forall k :: 0 <= k < |items| ==>
      && (validate(items[k]).Accepted? ==> fixed(items[k]) == Some(validate(items[k]).mcq))
      && (validate(items[k]).Rejected? ==> fixed(items[k]).None?)
    ensures AcceptEach(validate, items).value == KeepSome(fixed, items)
  {
    if items != [] {
      var tail := items[1..];
      assert forall k :: 0 <= k < |tail| ==> tail[k] == items[k + 1];
      AcceptEachAgrees(validate, fixed, tail);
    }
  }

  /**
   * Where the as-written loop finishes and no item keeps more than four
   * options after cleaning, it returns what the corrected loop returns.
   */
  lemma ValidateAllAgrees(items: seq<RawMcq>)
    requires ValidateAllAsWritten(items).Some? && FewOptions(items)
    ensures ValidateAllAsWritten(items).value == ValidateAll(items)
  {
    forall k | 0 <= k < |items|
      ensures ValidateMcq(items[k]).Accepted? ==> ValidateMcqFixed(items[k]) == Some(ValidateMcq(items[k]).mcq)
      ensures ValidateMcq(items[k]).Rejected? ==> ValidateMcqFixed(items[k]).None?
    {
      var raw := items[k];
      if ValidateMcq(raw).Accepted? {
        FixedAgreesWithAsWritten(raw.question.value, raw.answer.value, raw.options.value, raw.difficulty);
      }
    }
    AcceptEachAgrees(ValidateMcq, ValidateMcqFixed, items);
  }

  /**
   * `generate_english_mcqs` over the validator as written: `None` when the
   * validation loop never finishes.
   */
  function GenerateEnglishMcqsAsWritten(reply: EnglishReply, maxQuestions: int): (r: Option<seq<Mcq>>)
    ensures reply.CallFailed? ==> r == Some([])
    ensures r.None? <==> (reply.Parsed? &&
      exists k :: 0 <= k < |Take(reply.items, maxQuestions)| && ValidateMcq(Take(reply.items, maxQuestions)[k]).Hangs?)
    ensures r.Some? && reply.Parsed? ==> |r.value| == CountShaped(Take(reply.items, maxQuestions))
    ensures r.Some? && maxQuestions >= 0 ==> |r.value| <= maxQuestions
    ensures r.Some? ==> forall k :: 0 <= k < |r.value| ==> ValidShape(r.value[k])
  {
    match reply
    case CallFailed => Some([])
    case Parsed(items) =>
      ValidateAllAsWritten(Take(items, maxQuestions))
  }

  /**
   * Where the as-written generation finishes and no item keeps more than
   * four options after cleaning, it agrees with the corrected one.
   */
  lemma EnglishGenerationAgrees(reply: EnglishReply, maxQuestions: int)
    requires GenerateEnglishMcqsAsWritten(reply, maxQuestions).Some?
    requires reply.Parsed? ==> FewOptions(Take(reply.items, maxQuestions))
    ensures GenerateEnglishMcqsAsWritten(reply, maxQuestions) == Some(GenerateEnglishMcqs(reply, maxQuestions))
  {
    if reply.Parsed? {
      ValidateAllAgrees(Take(reply.items, maxQuestions));
    }
  }

  /**
   * The outcome of translating one item: the call or the parse raised
   * (lines 244-251), or the parsed reply.
   */
  datatype TranslationReply = Unusable | Translated(reply: RawMcq)

  /**
   * A reply the loop at 225-242 adopts: it carries a question, an answer and
   * options, and its question differs from the original's ignoring case.
   */
  predicate Adopted(mcq: Mcq, reply: TranslationReply) {
    && reply.Translated? && reply.reply.Object?
    && reply.reply.question.Some? && reply.reply.answer.Some? && reply.reply.options.Some?
    && Lower(reply.reply.question.value) != Lower(mcq.question)
  }

  /** The item an adopted reply stands for. */
  function FromReply(raw: RawMcq): Mcq
    requires raw.Object? && raw.question.Some? && raw.answer.Some? && raw.options.Some?
  {
    Mcq(raw.question.value, raw.answer.value, raw.options.value, raw.difficulty)
  }

  /**
   * The body of the loop at 181-251: the reply replaces the item exactly when
   * it is adopted; otherwise the English item is kept.
   */
  function TranslateOne(mcq: Mcq, reply: TranslationReply): (r: Mcq)
    ensures Adopted(mcq, reply) ==> r == FromReply(reply.reply)
    ensures !Adopted(mcq, reply) ==> r == mcq
    ensures r == mcq || Lower(r.question) != Lower(mcq.question)
  {
    match reply
    case Translated(Object(Some(q), Some(a), Some(opts), d)) =>
      if Lower(mcq.question) != Lower(q) then Mcq(q, a, opts, d) else mcq
    case _ => mcq
  }

  /** The reply to the translation of item `i`; a missing reply counts as a failed call. */
  function ReplyAt(replies: seq<TranslationReply>, i: nat): TranslationReply {
    if i < |replies| then replies[i] else Unusable
  }

  /**
   * `translate_mcqs_to_language`: English or an empty list come back as they
   * are (166-168), as does everything when setting up the model fails (272-277);
   * otherwise one item per input item, in order.
   */
  function TranslateMcqs(english: seq<Mcq>, language: string, setupFails: bool, replies: seq<TranslationReply>): (r: seq<Mcq>)
    ensures |r| == |english|
    ensures Lower(language) == "english" || setupFails ==> r == english
    ensures forall i :: 0 <= i < |r| ==> r[i] == english[i] || Lower(r[i].question) != Lower(english[i].question)
    ensures !(Lower(language) == "english" || setupFails) ==> forall i :: 0 <= i < |r| ==>
      && (Adopted(english[i], ReplyAt(replies, i)) ==> r[i] == FromReply(replies[i].reply))
      && (!Adopted(english[i], ReplyAt(replies, i)) ==> r[i] == english[i])
  {
    if Lower(language) == "english" || english == [] || setupFails then english
    else seq(|english|, i requires 0 <= i < |english| => TranslateOne(english[i], ReplyAt(replies, i)))
  }

  /** Without a usable reply for any item, the translation changes nothing. */
  lemma TranslateWithoutReplies(english: seq<Mcq>, language: string, setupFails: bool, replies: seq<TranslationReply>)
    requires forall i :: 0 <= i < |replies| ==> replies[i] == Unusable
    ensures TranslateMcqs(english, language, setupFails, replies) == english
  {
    var r := TranslateMcqs(english, language, setupFails, replies);
    forall i | 0 <= i < |english| ensures r[i] == english[i] {
      if !(Lower(language) == "english" || english == [] || setupFails) {
        assert ReplyAt(replies, i) == Unusable;
      }
    }
  }

  const TruncationMarker: string := "... [text truncated]"

  /** The truncation at 30-32: text beyond 6000 characters is cut and marked. */
  function Truncate(text: string): (r: string)
    ensures |text| <= 6000 ==> r == text
    ensures |text| > 6000 ==> |r| == 6000 + |TruncationMarker| && r[..6000] == text[..6000] && EndsWith(r, TruncationMarker)
  {
    if |text| > 6000 then text[..6000] + TruncationMarker else text
  }

  /**
   * The branches of `make_mcqs` (lines 24-80) once `generate_english_mcqs`
   * has returned `english`. `hasKey` says whether the API key is set;
   * `setupFails` and `replies` are what the translation calls produced.
   */
  function MakeMcqsWith(text: string, language: string, maxQuestions: int, hasKey: bool,
                        english: seq<Mcq>, setupFails: bool, replies: seq<TranslationReply>): (r: seq<Mcq>)
    ensures |Strip(text)| < 50 ==> r == []
    ensures maxQuestions >= 0 ==> |r| <= maxQuestions
  {
    var stripped := Strip(text);
    if |stripped| < 50 then []
    else
      var t := Truncate(stripped);
      if !hasKey then FallbackMcqs(t, maxQuestions)
      else if english == [] then FallbackMcqs(t, maxQuestions)
      else if Lower(language) == "english" then Take(english, maxQuestions)
      else
        var translated := TranslateMcqs(english, language, setupFails, replies);
        if |translated| > 0 then Take(translated, maxQuestions)
        else Take(english, maxQuestions)
  }

  /** `make_mcqs` with the corrected validator; `reply` is what the quiz-generation call produced. */
  function MakeMcqs(text: string, language: string, maxQuestions: int, hasKey: bool,
                    reply: EnglishReply, setupFails: bool, replies: seq<TranslationReply>): (r: seq<Mcq>)
    ensures |Strip(text)| < 50 ==> r == []
    ensures maxQuestions >= 0 ==> |r| <= maxQuestions
  {
    MakeMcqsWith(text, language, maxQuestions, hasKey, GenerateEnglishMcqs(reply, maxQuestions), setupFails, replies)
  }

  /**
   * `make_mcqs` with the validator as written: `None` when the call to
   * `generate_english_mcqs` never returns.
   */
  function MakeMcqsAsWritten(text: string, language: string, maxQuestions: int, hasKey: bool,
                             reply: EnglishReply, setupFails: bool, replies: seq<TranslationReply>): (r: Option<seq<Mcq>>)
    ensures r.None? <==> |Strip(text)| >= 50 && hasKey && GenerateEnglishMcqsAsWritten(reply, maxQuestions).None?
    ensures r.Some? && |Strip(text)| < 50 ==> r.value == []
    ensures r.Some? && maxQuestions >= 0 ==> |r.value| <= maxQuestions
  {
    if |Strip(text)| < 50 || !hasKey then Some(MakeMcqsWith(text, language, maxQuestions, hasKey, [], setupFails, replies))
    else
      match GenerateEnglishMcqsAsWritten(reply, maxQuestions)
      case None => None
      case Some(english) => Some(MakeMcqsWith(text, language, maxQuestions, hasKey, english, setupFails, replies))
  }

  /**
   * Where `make_mcqs` as written returns and no generated item keeps more
   * than four options after cleaning, it returns what the corrected one does.
   */
  lemma MakeMcqsAgrees(text: string, language: string, maxQuestions: int, hasKey: bool,
                       reply: EnglishReply, setupFails: bool, replies: seq<TranslationReply>)
    requires MakeMcqsAsWritten(text, language, maxQuestions, hasKey, reply, setupFails, replies).Some?
    requires reply.Parsed? ==> FewOptions(Take(reply.items, maxQuestions))
    ensures MakeMcqsAsWritten(text, language, maxQuestions, hasKey, reply, setupFails, replies)
         == Some(MakeMcqs(text, language, maxQuestions, hasKey, reply, setupFails, replies))
  {
    if |Strip(text)| >= 50 && hasKey {
      EnglishGenerationAgrees(reply, maxQuestions);
    }
  }

  /** The item of the dropped-answer finding: five clean options, the answer the fifth. */
  const AnswerBeyondFour: RawMcq := Object(Some("q?"), Some("e"), Some(["a", "b", "c", "d", "e"]), Some("easy"))

  /** The item of the padding finding: one year option that is also the second year filler. */
  const RepeatedYear: RawMcq := Object(Some("when?"), Some("1969"), Some(["1969", "", "", ""]), None)

  /**
   * In English, every item `make_mcqs` as written returns has four options;
   * the answer need not be among them (`MakeMcqsDropsAnswer`).
   */
  lemma EnglishAsWrittenFourOptions(text: string, language: string, maxQuestions: int, hasKey: bool,
                                    reply: EnglishReply, setupFails: bool, replies: seq<TranslationReply>, i: nat)
    requires Lower(language) == "english"
    requires MakeMcqsAsWritten(text, language, maxQuestions, hasKey, reply, setupFails, replies).Some?
    requires i < |MakeMcqsAsWritten(text, language, maxQuestions, hasKey, reply, setupFails, replies).value|
    ensures |MakeMcqsAsWritten(text, language, maxQuestions, hasKey, reply, setupFails, replies).value[i].options| == 4
  {
    var r := MakeMcqsAsWritten(text, language, maxQuestions, hasKey, reply, setupFails, replies).value;
    var t := Truncate(Strip(text));
    if hasKey && GenerateEnglishMcqsAsWritten(reply, maxQuestions).value != [] {
      var english := GenerateEnglishMcqsAsWritten(reply, maxQuestions).value;
      assert r == Take(english, maxQuestions);
      assert r[i] == english[i];
    } else {
      assert r == FallbackMcqs(t, maxQuestions);
      FallbackItemsFromText(t, maxQuestions, i);
    }
  }

  /** The validation loop as written keeps the dropped-answer item, answer and all. */
  lemma EnglishDropsAnswer()
    ensures var e := GenerateEnglishMcqsAsWritten(Parsed([AnswerBeyondFour]), 1);
      e.Some? && |e.value| == 1 && e.value[0].answer !in e.value[0].options
  {
    ValidateMcqDropsAnswerExample();
    assert Take([AnswerBeyondFour], 1) == [AnswerBeyondFour];
    AcceptOne(ValidateMcq, AnswerBeyondFour);
  }

  lemma EnglishIsEnglish()
    ensures Lower("English") == "english"
  {
  }

  /**
   * `make_mcqs` as written, in English, can return an item whose answer is
   * not among its options.
   */
  lemma MakeMcqsDropsAnswer(text: string, setupFails: bool, replies: seq<TranslationReply>)
    requires |Strip(text)| >= 50
    ensures var r := MakeMcqsAsWritten(text, "English", 1, true, Parsed([AnswerBeyondFour]), setupFails, replies);
      r.Some? && |r.value| == 1 && r.value[0].answer !in r.value[0].options
  {
    EnglishDropsAnswer();
    EnglishIsEnglish();
    var english := GenerateEnglishMcqsAsWritten(Parsed([AnswerBeyondFour]), 1).value;
    assert Take(english, 1) == english;
  }

  /** `make_mcqs` as written never returns when the model's only item makes the validator spin. */
  lemma MakeMcqsHangs(text: string, language: string, maxQuestions: int, setupFails: bool, replies: seq<TranslationReply>)
    requires |Strip(text)| >= 50 && maxQuestions >= 1
    ensures MakeMcqsAsWritten(text, language, maxQuestions, true, Parsed([RepeatedYear]), setupFails, replies).None?
  {
    ValidateMcqHangsExample();
    assert Take([RepeatedYear], maxQuestions) == [RepeatedYear];
    AcceptOne(ValidateMcq, RepeatedYear);
  }

  /** The branch at 78-80 never runs: a non-empty list always comes back from translation non-empty. */
  lemma TranslationNeverEmpty(english: seq<Mcq>, language: string, setupFails: bool, replies: seq<TranslationReply>)
    requires english != []
    ensures TranslateMcqs(english, language, setupFails, replies) != []
  {
    assert |TranslateMcqs(english, language, setupFails, replies)| == |english|;
  }

  /** An item a learner can answer: four options, with the answer among them. */
  predicate Answerable(m: Mcq) {
    |m.options| == 4 && m.answer in m.options
  }

  /** In English, `make_mcqs` returns either the fallback items or the first valid English items. */
  lemma EnglishBranches(text: string, language: string, maxQuestions: int, hasKey: bool,
                        reply: EnglishReply, setupFails: bool, replies: seq<TranslationReply>)
    requires Lower(language) == "english" && |Strip(text)| >= 50
    ensures var r := MakeMcqs(text, language, maxQuestions, hasKey, reply, setupFails, replies);
      var english := GenerateEnglishMcqs(reply, maxQuestions);
      || (r == FallbackMcqs(Truncate(Strip(text)), maxQuestions) && (!hasKey || english == []))
      || (r == Take(english, maxQuestions) && hasKey && english != [])
  {
  }

  /**
   * In English, every item `make_mcqs` returns has four options including its
   * answer, whether it came from the model or from the fallback.
   */
  lemma EnglishMcqsAnswerable(text: string, language: string, maxQuestions: int, hasKey: bool,
                              reply: EnglishReply, setupFails: bool, replies: seq<TranslationReply>, i: nat)
    requires Lower(language) == "english"
    requires i < |MakeMcqs(text, language, maxQuestions, hasKey, reply, setupFails, replies)|
    ensures Answerable(MakeMcqs(text, language, maxQuestions, hasKey, reply, setupFails, replies)[i])
  {
    var r := MakeMcqs(text, language, maxQuestions, hasKey, reply, setupFails, replies);
    EnglishBranches(text, language, maxQuestions, hasKey, reply, setupFails, replies);
    var english := GenerateEnglishMcqs(reply, maxQuestions);
    if r == Take(english, maxQuestions) && hasKey && english != [] {
      assert r[i] == english[i];
    } else {
      FallbackItemsFromText(Truncate(Strip(text)), maxQuestions, i);
    }
  }

  /**
   * The fallback is used exactly when the text is long enough and either the
   * key is missing or the model produced no valid item; its answers are then
   * stretches of the (possibly truncated) text.
   */
  lemma FallbackAnswersFromText(text: string, language: string, maxQuestions: int, hasKey: bool,
                                reply: EnglishReply, setupFails: bool, replies: seq<TranslationReply>, i: nat)
    requires |Strip(text)| >= 50
    requires !hasKey || GenerateEnglishMcqs(reply, maxQuestions) == []
    requires i < |MakeMcqs(text, language, maxQuestions, hasKey, reply, setupFails, replies)|
    ensures Contains(Truncate(Strip(text)), MakeMcqs(text, language, maxQuestions, hasKey, reply, setupFails, replies)[i].answer)
  {
    FallbackItemsFromText(Truncate(Strip(text)), maxQuestions, i);
  }

  /**
   * With the key set and at least one valid item, a non-English request
   * yields one item per English item (up to `max_questions`), each the
   * English item or a translation whose question differs.
   */
  lemma TranslatedLength(text: string, language: string, maxQuestions: int,
                         reply: EnglishReply, setupFails: bool, replies: seq<TranslationReply>)
    requires |Strip(text)| >= 50 && Lower(language) != "english" && maxQuestions >= 0
    requires GenerateEnglishMcqs(reply, maxQuestions) != []
    ensures var english := GenerateEnglishMcqs(reply, maxQuestions);
      var r := MakeMcqs(text, language, maxQuestions, true, reply, setupFails, replies);
      |r| == |english| && forall i :: 0 <= i < |r| ==> r[i] == english[i] || Lower(r[i].question) != Lower(english[i].question)
  {
  }

  datatype Flashcard = Flashcard(question: string, answer: string)

  /** `make_flashcards`: the question and answer of each item, sliced to `max_cards`. */
  function MakeFlashcards(text: string, language: string, maxCards: int, hasKey: bool,
                          reply: EnglishReply, setupFails: bool, replies: seq<TranslationReply>): (r: seq<Flashcard>)
    ensures var mcqs := MakeMcqs(text, language, maxCards, hasKey, reply, setupFails, replies);
      |r| <= |mcqs| && forall i :: 0 <= i < |r| ==> r[i] == Flashcard(mcqs[i].question, mcqs[i].answer)
  {
    var mcqs := MakeMcqs(text, language, maxCards, hasKey, reply, setupFails, replies);
    Take(seq(|mcqs|, i requires 0 <= i < |mcqs| => Flashcard(mcqs[i].question, mcqs[i].answer)), maxCards)
  }

  /** With a non-negative bound, the final slice drops nothing: one card per item. */
  lemma FlashcardPerItem(text: string, language: string, maxCards: int, hasKey: bool,
                         reply: EnglishReply, setupFails: bool, replies: seq<TranslationReply>)
    requires maxCards >= 0
    ensures |MakeFlashcards(text, language, maxCards, hasKey, reply, setupFails, replies)|
         == |MakeMcqs(text, language, maxCards, hasKey, reply, setupFails, replies)|
  {
  }
}

=== FILE: quiz.dfy ===
/**
 * The quiz-item validator of the MCQ generator: `validate_mcq` and the
 * distractor filler `generate_meaningful_filler` it uses.
 *
 * `ValidateMcq` follows the code as written, including a padding loop that can
 * spin forever and a final slice that can drop the answer; `ValidateMcqFixed`
 * is the corrected validator. The pipeline is modelled over both.
 */
module Quiz {
  import opened Wrappers
  import opened Text
  import opened Fillers

  /** One element of the decoded JSON array. `None` marks a key the object lacks. */
  datatype RawMcq =
    | Object(question: Option<string>, answer: Option<string>, options: Option<seq<string>>, difficulty: Option<string>)
    | NotObject

  /**
   * A quiz item as the backend returns it. `difficulty` is `None` only for a
   * translated item whose reply lacked that key.
   */
  datatype Mcq = Mcq(question: string, answer: string, options: seq<string>, difficulty: Option<string>)

  /** What `validate_mcq` does with one item: returns `None`, returns an item, or never returns. */
  datatype Validation = Rejected | Accepted(mcq: Mcq) | Hangs

  /** The difficulty labels the validator accepts. */
  const Difficulties: seq<string> := ["easy", "medium", "hard"]

  /** The phrases that make an option too vague to keep. */
  const VagueTerms: seq<string> := [
    "wrong", "incorrect", "not correct", "false", "invalid",
    "different concept", "alternative perspective", "common misconception",
    "broader interpretation", "related but different", "someone else",
    "not this", "other answer", "another option"
  ]

  /** An option too vague to keep (the argument is already lower-cased). */
  predicate IsVague(lowered: string) {
    MentionsAny(lowered, VagueTerms)
  }

  /** Every vague phrase has at least five characters, so shorter options are never vague. */
  lemma ShortNotVague(text: string)
    requires |text| < 5
    ensures !IsVague(text)
  {
    VagueTermsLong(text);
    ShorterThanAll(text, VagueTerms);
  }

  /** Each vague phrase is longer than any text of fewer than five characters. */
  lemma VagueTermsLong(text: string)
    requires |text| < 5
    ensures forall t | t in VagueTerms :: |text| < |t|
  {
  }

  // ---------------------------------------------------------------------------
  // validate_mcq, step by step
  // ---------------------------------------------------------------------------

  /** The item shapes `validate_mcq` turns away before looking at the options' contents. */
  predicate RejectsShape(raw: RawMcq) {
    || raw.NotObject?
    || Strip(raw.question.GetOr("")) == []
    || Strip(raw.answer.GetOr("")) == []
    || |raw.options.GetOr([])| < 4
  }

  /** The position of the first option equal to `answer` ignoring case. */
  function FindIgnoringCase(options: seq<string>, answer: string): (r: Option<nat>)
    ensures r.Some? ==> r.value < |options| && Lower(options[r.value]) == Lower(answer)
    ensures r.Some? ==> forall j :: 0 <= j < r.value ==> Lower(options[j]) != Lower(answer)
    ensures r.None? <==> forall j :: 0 <= j < |options| ==> Lower(options[j]) != Lower(answer)
  {
    if options == [] then None
    else if Lower(options[0]) == Lower(answer) then Some(0)
    else
      match FindIgnoringCase(options[1..], answer)
      case Some(k) => Some(k + 1)
      case None => None
  }

  /**
   * The answer after the reconciliation at 318-327: kept when it is an option,
   * else the first option equal to it ignoring case, else the first option.
   */
  function ReconcileAnswer(answer: string, options: seq<string>): (r: string)
    requires options != []
    ensures r in options
    ensures answer in options ==> r == answer
    ensures answer !in options && (exists j :: 0 <= j < |options| && Lower(options[j]) == Lower(answer)) ==>
      exists k :: 0 <= k < |options| && r == options[k] && Lower(options[k]) == Lower(answer)
        && forall j :: 0 <= j < k ==> Lower(options[j]) != Lower(answer)
    ensures answer !in options && (forall j :: 0 <= j < |options| ==> Lower(options[j]) != Lower(answer)) ==>
      r == options[0]
  {
    if answer in options then answer
    else
      match FindIgnoringCase(options, answer)
      case Some(k) => options[k]
      case None => options[0]
  }

  /** The state shared by the cleaning and padding loops: the options kept, and their lower-cased forms. */
  datatype Cleaning = Cleaning(kept: seq<string>, seen: set<string>)

  function LowerSet(xs: seq<string>): set<string> {
    set x | x in xs :: Lower(x)
  }

  /** A well-formed state: `seen` is exactly the lower-cased kept options, which are distinct ignoring case. */
  predicate Consistent(st: Cleaning) {
    && st.seen == LowerSet(st.kept)
    && |st.seen| == |st.kept|
    && DistinctIgnoringCase(st.kept)
  }

  /** Keep `x` unless an option equal to it ignoring case is already kept. */
  function TryAppend(st: Cleaning, x: string): Cleaning
  {
    if Lower(x) !in st.seen then Cleaning(st.kept + [x], st.seen + {Lower(x)}) else st
  }

  /** `TryAppend` keeps a state consistent, and appends exactly when `x` is new ignoring case. */
  lemma TryAppendConsistent(st: Cleaning, x: string)
    requires Consistent(st)
    ensures Consistent(TryAppend(st, x))
    ensures Lower(x) in TryAppend(st, x).seen
    ensures Lower(x) in st.seen <==> TryAppend(st, x) == st
    ensures Lower(x) !in st.seen ==> TryAppend(st, x).kept == st.kept + [x]
  {
    if Lower(x) !in st.seen {
      var next := TryAppend(st, x);
      forall i, j | 0 <= i < j < |next.kept| ensures Lower(next.kept[i]) != Lower(next.kept[j]) {
        if j == |st.kept| {
          assert Lower(st.kept[i]) in st.seen;
        }
      }
      assert LowerSet(next.kept) == LowerSet(st.kept) + {Lower(x)};
    }
  }

  /**
   * One pass of the loop at 340-356: skip an empty option or one mentioning a
   * phrase of `terms` (the phrases `VagueTerms`), keep it if new ignoring case.
   */
  function CleanStep(terms: seq<string>, st: Cleaning, option: string): Cleaning
  {
    var s := Strip(option);
    if s == [] || MentionsAny(Lower(s), terms) then st else TryAppend(st, s)
  }

  /** The loop at 340-356 over all options. */
  function CleanOptions(terms: seq<string>, options: seq<string>): (c: Cleaning)
    ensures Consistent(c)
    decreases |options|
  {
    if options == [] then Cleaning([], {})
    else
      var before := CleanOptions(terms, options[..|options| - 1]);
      var option := options[|options| - 1];
      TryAppendConsistent(before, Strip(option));
      CleanStep(terms, before, option)
  }

  /** An option the cleaning loop does not discard on its own merits. */
  predicate Survives(terms: seq<string>, option: string) {
    Strip(option) != [] && !MentionsAny(Lower(Strip(option)), terms)
  }

  /** `x` is one of the options, stripped. */
  predicate FromOptions(x: string, options: seq<string>) {
    exists m | 0 <= m < |options| :: x == Strip(options[m])
  }

  /** The options a clean state may hold: stripped input options that are non-empty and not vague. */
  predicate CleanFrom(terms: seq<string>, kept: seq<string>, options: seq<string>) {
    forall k :: 0 <= k < |kept| ==> kept[k] != [] && !MentionsAny(Lower(kept[k]), terms) && FromOptions(kept[k], options)
  }

  /** One more option adds at most one kept option, at the end. */
  lemma CleanOptionsGrows(terms: seq<string>, options: seq<string>)
    requires options != []
    ensures var before := CleanOptions(terms, options[..|options| - 1]);
      var c := CleanOptions(terms, options);
      && |before.kept| <= |c.kept| <= |before.kept| + 1
      && c.kept[..|before.kept|] == before.kept
      && (|c.kept| > |before.kept| ==> c.kept[|before.kept|] == Strip(options[|options| - 1]))
  {
    var before := CleanOptions(terms, options[..|options| - 1]);
    var x := Strip(options[|options| - 1]);
    TryAppendConsistent(before, x);
    var kept := CleanOptions(terms, options).kept;
    if kept != before.kept {
      assert kept == before.kept + [x];
      assert kept[..|before.kept|] == before.kept;
    }
  }

  /** One more option never makes the loop forget a lower-cased form it has seen. */
  lemma CleanOptionsKeepsSeen(terms: seq<string>, options: seq<string>, x: string)
    requires options != [] && x in CleanOptions(terms, options[..|options| - 1]).seen
    ensures x in CleanOptions(terms, options).seen
  {
  }

  /** An option kept before one more input stays clean and still comes from the options. */
  lemma CleanOptionsKeptEarlier(terms: seq<string>, options: seq<string>, k: nat)
    requires options != []
    requires CleanFrom(terms, CleanOptions(terms, options[..|options| - 1]).kept, options[..|options| - 1])
    requires k < |CleanOptions(terms, options[..|options| - 1]).kept|
    ensures k < |CleanOptions(terms, options).kept|
    ensures var x := CleanOptions(terms, options).kept[k];
      x != [] && !MentionsAny(Lower(x), terms) && FromOptions(x, options)
  {
    var prefix := options[..|options| - 1];
    CleanOptionsGrows(terms, options);
    var x := CleanOptions(terms, prefix).kept[k];
    assert CleanOptions(terms, options).kept[k] == x;
    var m :| 0 <= m < |prefix| && x == Strip(prefix[m]);
    assert options[m] == prefix[m];
  }

  /** The option kept from the last input, if any, is clean and comes from the options. */
  lemma CleanOptionsKeptLast(terms: seq<string>, options: seq<string>)
    requires options != []
    requires |CleanOptions(terms, options[..|options| - 1]).kept| < |CleanOptions(terms, options).kept|
    ensures var x := CleanOptions(terms, options).kept[|CleanOptions(terms, options[..|options| - 1]).kept|];
      x != [] && !MentionsAny(Lower(x), terms) && FromOptions(x, options)
  {
    var before := CleanOptions(terms, options[..|options| - 1]);
    var last := options[|options| - 1];
    TryAppendConsistent(before, Strip(last));
    assert CleanOptions(terms, options).kept[|before.kept|] == Strip(last);
  }

  /** The cleaning loop keeps only stripped, non-empty, non-vague input options, and no more of them than it was given. */
  lemma {:induction false} CleanOptionsKept(terms: seq<string>, options: seq<string>)
    ensures CleanFrom(terms, CleanOptions(terms, options).kept, options)
    ensures |CleanOptions(terms, options).kept| <= |options|
    decreases |options|
  {
    if options != [] {
      var prefix := options[..|options| - 1];
      CleanOptionsKept(terms, prefix);
      CleanOptionsGrows(terms, options);
      var n := |CleanOptions(terms, prefix).kept|;
      forall k | 0 <= k < |CleanOptions(terms, options).kept|
        ensures var x := CleanOptions(terms, options).kept[k];
          x != [] && !MentionsAny(Lower(x), terms) && FromOptions(x, options)
      {
        if k < n {
          CleanOptionsKeptEarlier(terms, options, k);
        } else {
          CleanOptionsKeptLast(terms, options);
        }
      }
    }
  }

  /** The last option, when it survives on its own merits, is recorded ignoring case. */
  lemma CleanOptionsRecordsLast(terms: seq<string>, options: seq<string>)
    requires options != [] && Survives(terms, options[|options| - 1])
    ensures Lower(Strip(options[|options| - 1])) in CleanOptions(terms, options).seen
  {
    var before := CleanOptions(terms, options[..|options| - 1]);
    var x := Strip(options[|options| - 1]);
    assert CleanOptions(terms, options) == TryAppend(before, x);
    TryAppendConsistent(before, x);
  }

  /** Every option that survives on its own merits is recorded, ignoring case, by the cleaning loop. */
  lemma {:induction false} CleanOptionsComplete(terms: seq<string>, options: seq<string>)
    ensures forall m :: 0 <= m < |options| && Survives(terms, options[m]) ==> Lower(Strip(options[m])) in CleanOptions(terms, options).seen
    decreases |options|
  {
    if options != [] {
      var prefix := options[..|options| - 1];
      CleanOptionsComplete(terms, prefix);
      forall m | 0 <= m < |options| && Survives(terms, options[m]) ensures Lower(Strip(options[m])) in CleanOptions(terms, options).seen {
        if m < |prefix| {
          assert options[m] == prefix[m];
          CleanOptionsKeepsSeen(terms, options, Lower(Strip(options[m])));
        } else {
          assert m == |options| - 1;
          CleanOptionsRecordsLast(terms, options);
        }
      }
    }
  }

  /** A prefix of options distinct ignoring case is distinct ignoring case. */
  lemma DistinctPrefix(xs: seq<string>, n: nat)
    requires n <= |xs| && DistinctIgnoringCase(xs)
    ensures DistinctIgnoringCase(xs[..n])
  {
    assert forall i :: 0 <= i < n ==> xs[..n][i] == xs[i];
  }

  // ---------------------------------------------------------------------------
  // The padding loop at 359-364, as written
  // ---------------------------------------------------------------------------

  /**
   * The body of the loop at 359-364: try the filler whose index is the number
   * of options kept so far. `fillers` is the list `FillerList(question)` that
   * `generate_meaningful_filler` indexes modulo four.
   */
  function PadStep(fillers: seq<string>, st: Cleaning): Cleaning
    requires |fillers| == 4
  {
    TryAppend(st, fillers[|st.kept| % 4])
  }

  /**
   * The loop at 359-364. When its body leaves the state unchanged while fewer
   * than four options are kept, the loop can never exit; that outcome is `None`.
   */
  function PadAsWritten(fillers: seq<string>, st: Cleaning): (r: Option<Cleaning>)
    requires |fillers| == 4
    ensures r.Some? && |st.kept| >= 4 ==> r.value == st
    decreases 4 - |st.kept|
  {
    if |st.kept| >= 4 then Some(st)
    else
      var next := PadStep(fillers, st);
      if next == st then None
      else
        assert |next.kept| == |st.kept| + 1;
        PadAsWritten(fillers, next)
  }

  /**
   * The as-written loop spins exactly when some filler it will ask for, at an
   * index between the current number of options and four, is already seen.
   */
  lemma {:induction false} PadAsWrittenHangs(fillers: seq<string>, st: Cleaning)
    requires |fillers| == 4 && DistinctIgnoringCase(fillers)
    ensures PadAsWritten(fillers, st).None? <==>
      exists k :: |st.kept| <= k < 4 && Lower(fillers[k]) in st.seen
    decreases 4 - |st.kept|
  {
    var n := |st.kept|;
    if n < 4 && Lower(fillers[n]) !in st.seen {
      var next := PadStep(fillers, st);
      PadAsWrittenHangs(fillers, next);
      forall k | n < k < 4 ensures Lower(fillers[k]) != Lower(fillers[n]) {
        assert Lower(fillers[n]) != Lower(fillers[k]);
      }
    }
  }

  /**
   * When the as-written loop exits, it has appended the fillers at the indices
   * from the current count up to four.
   */
  lemma {:induction false} PadAsWrittenResult(fillers: seq<string>, st: Cleaning)
    requires |fillers| == 4
    requires PadAsWritten(fillers, st).Some?
    ensures var r := PadAsWritten(fillers, st).value;
      && |st.kept| <= |r.kept|
      && r.kept[..|st.kept|] == st.kept
      && (|st.kept| < 4 ==> |r.kept| == 4 && forall k :: |st.kept| <= k < 4 ==> r.kept[k] == fillers[k])
    decreases 4 - |st.kept|
  {
    var n := |st.kept|;
    if n < 4 {
      var next := PadStep(fillers, st);
      assert n % 4 == n;
      assert Lower(fillers[n]) !in st.seen;
      assert next.kept == st.kept + [fillers[n]];
      PadAsWrittenResult(fillers, next);
      var r := PadAsWritten(fillers, next).value;
      PrefixOfPrefix(r.kept, n + 1, n);
      assert r.kept[n] == r.kept[..n + 1][n];
    }
  }

  /** The as-written loop keeps its state consistent. */
  lemma {:induction false} PadAsWrittenConsistent(fillers: seq<string>, st: Cleaning)
    requires |fillers| == 4 && Consistent(st)
    requires PadAsWritten(fillers, st).Some?
    ensures Consistent(PadAsWritten(fillers, st).value)
    decreases 4 - |st.kept|
  {
    if |st.kept| < 4 {
      TryAppendConsistent(st, fillers[|st.kept| % 4]);
      PadAsWrittenConsistent(fillers, PadStep(fillers, st));
    }
  }

  /** Python's `.strip().lower()` of the difficulty, defaulting to "medium" when the key is absent. */
  function DifficultyLabel(raw: Option<string>): (r: string)
    ensures raw.None? ==> r == "medium"
    ensures raw.Some? && Stripped(raw.value) && NoCapitals(raw.value) ==> r == raw.value
    ensures raw.Some? ==> |r| <= |raw.value|
    ensures forall k :: 0 <= k < |r| ==> !('A' <= r[k] <= 'Z')
  {
    var s := raw.GetOr("medium");
    if Stripped(s) && NoCapitals(s) then
      StripStripped(s);
      LowerNoCapitals(s);
      Lower(Strip(s))
    else
      Lower(Strip(s))
  }

  /** A label written with capitals and surrounding blanks is recognised after stripping and lower-casing. */
  lemma DifficultyLabelExample()
    ensures DifficultyLabel(Some(" Hard\n")) == "hard"
  {
    var s := " Hard\n";
    assert FirstNonBlank(s, 1) == 1 && FirstNonBlank(s, 0) == 1;
    assert LastNonBlankEnd(s, 1, 5) == 5 && LastNonBlankEnd(s, 1, 6) == 5;
    assert Strip(s) == s[1..5] == "Hard";
  }

  /**
   * The difficulty check at 370-378: a recognised label is kept; otherwise the
   * label is derived from the word count of question and answer.
   */
  function ResolveDifficulty(stated: string, question: string, answer: string): (r: string)
    ensures r in Difficulties
    ensures stated in Difficulties ==> r == stated
    ensures stated !in Difficulties ==>
      && (r == "easy" <==> |Words(question)| + |Words(answer)| < 20)
      && (r == "hard" <==> |Words(question)| + |Words(answer)| >= 40)
  {
    if stated in Difficulties then stated
    else
      var total := |Words(question)| + |Words(answer)|;
      if total < 20 then "easy"
      else if total < 40 then "medium"
      else "hard"
  }

  /**
   * The promises about a validated item that do not depend on the answer:
   * stripped non-empty question, four non-empty options distinct ignoring
   * case, and a recognised difficulty.
   */
  predicate ValidShape(m: Mcq) {
    && m.question != [] && Stripped(m.question)
    && |m.options| == 4
    && DistinctIgnoringCase(m.options)
    && (forall k :: 0 <= k < 4 ==> m.options[k] != [])
    && m.difficulty.Some? && m.difficulty.value in Difficulties
  }

  /** A returned option is either a filler for the question or a stripped, non-vague input option. */
  predicate OptionOrigin(option: string, question: string, options: seq<string>) {
    || option in FillerList(question)
    || (FromOptions(option, options) && !IsVague(Lower(option)))
  }

  /** Clean options, then fillers from the question's list: the first four have the promised shape. */
  lemma PaddedShape(question: string, options: seq<string>, st: Cleaning, r: Cleaning)
    requires Consistent(r) && |r.kept| >= 4
    requires CleanFrom(VagueTerms, st.kept, options) && |st.kept| <= |r.kept| && r.kept[..|st.kept|] == st.kept
    requires forall k :: |st.kept| <= k < |r.kept| ==> r.kept[k] in FillerList(question)
    ensures DistinctIgnoringCase(r.kept[..4])
    ensures forall k :: 0 <= k < 4 ==> r.kept[..4][k] != [] && OptionOrigin(r.kept[..4][k], question, options)
  {
    FillerListFacts(question);
    DistinctPrefix(r.kept, 4);
    forall k | 0 <= k < 4 ensures r.kept[k] != [] && OptionOrigin(r.kept[k], question, options) {
      if k < |st.kept| {
        assert r.kept[k] == st.kept[k];
      } else {
        var f := r.kept[k];
        assert f in FillerList(question);
      }
    }
  }

  /**
   * Lines 366-385: the answer is kept if it is among `pool`, else replaced by
   * the first option; the difficulty is resolved; the first four options are
   * returned.
   */
  function Assemble(question: string, answer: string, difficulty: Option<string>, pool: seq<string>, four: seq<string>): (m: Mcq)
    requires four != []
    ensures m.question == question && m.options == four
    ensures answer in pool ==> m.answer == answer
    ensures answer !in pool ==> m.answer == four[0]
    ensures m.difficulty.Some? && m.difficulty.value in Difficulties
    ensures m.difficulty == Some(ResolveDifficulty(DifficultyLabel(difficulty), question, m.answer))
    ensures DifficultyLabel(difficulty) in Difficulties ==> m.difficulty == Some(DifficultyLabel(difficulty))
    ensures difficulty.None? ==> m.difficulty == Some("medium")
  {
    var finalAnswer := if answer in pool then answer else four[0];
    Mcq(question, finalAnswer, four, Some(ResolveDifficulty(DifficultyLabel(difficulty), question, finalAnswer)))
  }

  /**
   * Cleaned options followed by the fillers at their own indices: the first
   * four are the first cleaned options, in order, and then those fillers.
   */
  lemma FirstFourAreFillers(kept: seq<string>, padded: seq<string>, fillers: seq<string>)
    requires |fillers| == 4 && |padded| >= 4 && |kept| <= |padded| && padded[..|kept|] == kept
    requires |kept| < 4 ==> forall k :: |kept| <= k < 4 ==> padded[k] == fillers[k]
    ensures var n := if |kept| < 4 then |kept| else 4;
      && padded[..4][..n] == kept[..n]
      && forall k :: n <= k < 4 ==> padded[..4][k] == fillers[k]
  {
    var n := if |kept| < 4 then |kept| else 4;
    assert padded[..4][..n] == padded[..|kept|][..n];
  }

  /**
   * `validate_mcq` as written: rejects malformed items, reconciles the answer,
   * cleans the options, pads them with fillers (possibly forever), puts the
   * answer back among the padded options, resolves the difficulty, and
   * returns the first four options.
   */
  function ValidateMcq(raw: RawMcq): (v: Validation)
    ensures v.Rejected? <==> RejectsShape(raw)
    ensures v.Accepted? ==> v.mcq.question == Strip(raw.question.value)
    ensures v.Accepted? ==>
      var kept := CleanOptions(VagueTerms, raw.options.value).kept;
      var n := if |kept| < 4 then |kept| else 4;
      && |v.mcq.options| == 4
      && v.mcq.options[..n] == kept[..n]
      && forall k :: n <= k < 4 ==> v.mcq.options[k] == FillerList(v.mcq.question)[k]
  {
    if RejectsShape(raw) then Rejected
    else
      var question := Strip(raw.question.value);
      var options := raw.options.value;
      var answer := ReconcileAnswer(Strip(raw.answer.value), options);
      var fillers := FillerList(question);
      var st := CleanOptions(VagueTerms, options);
      FillerListFacts(question);
      PadAsWrittenHangs(fillers, st);
      match PadAsWritten(fillers, st)
      case None => Hangs
      case Some(r) =>
        PadAsWrittenResult(fillers, st);
        PadAsWrittenConsistent(fillers, st);
        CleanOptionsKept(VagueTerms, options);
        PaddedShape(question, options, st, r);
        FirstFourAreFillers(st.kept, r.kept, fillers);
        Accepted(Assemble(question, answer, raw.difficulty, r.kept, r.kept[..4]))
  }

  /**
   * The as-written validator spins exactly when some filler the padding loop
   * will ask for is already seen among the cleaned options.
   */
  lemma ValidateMcqHangs(raw: RawMcq)
    ensures ValidateMcq(raw).Hangs? <==> (!RejectsShape(raw) &&
      var st := CleanOptions(VagueTerms, raw.options.value);
      exists k :: |st.kept| <= k < 4 && Lower(FillerList(Strip(raw.question.value))[k]) in st.seen)
  {
    if !RejectsShape(raw) {
      var question := Strip(raw.question.value);
      FillerListFacts(question);
      PadAsWrittenHangs(FillerList(question), CleanOptions(VagueTerms, raw.options.value));
    }
  }

  /**
   * An item the as-written validator returns has the promised shape, its
   * options come from the input or the fillers, and its answer is among them
   * when at most four options survive cleaning.
   */
  lemma ValidateMcqShape(raw: RawMcq)
    requires ValidateMcq(raw).Accepted?
    ensures var m := ValidateMcq(raw).mcq;
      && ValidShape(m)
      && (forall k :: 0 <= k < 4 ==> OptionOrigin(m.options[k], m.question, raw.options.value))
      && (|CleanOptions(VagueTerms, raw.options.value).kept| <= 4 ==> m.answer in m.options)
    ensures var m := ValidateMcq(raw).mcq;
      var kept := CleanOptions(VagueTerms, raw.options.value).kept;
      var n := if |kept| < 4 then |kept| else 4;
      && |m.options| == 4
      && m.options[..n] == kept[..n]
      && forall k :: n <= k < 4 ==> m.options[k] == FillerList(m.question)[k]
  {
    var question := Strip(raw.question.value);
    var options := raw.options.value;
    var fillers := FillerList(question);
    var st := CleanOptions(VagueTerms, options);
    FillerListFacts(question);
    var r := PadAsWritten(fillers, st).value;
    PadAsWrittenResult(fillers, st);
    PadAsWrittenConsistent(fillers, st);
    CleanOptionsKept(VagueTerms, options);
    PaddedShape(question, options, st, r);
    if |st.kept| <= 4 {
      assert r.kept[..4] == r.kept;
    }
  }

  /**
   * An item the as-written validator returns keeps the stated difficulty once
   * stripped and lower-cased when it is recognised ("medium" when the key is
   * absent), and otherwise takes it from the word count; its answer is the
   * reconciled input answer whenever that is among the returned options.
   */
  lemma ValidateMcqKeepsInput(raw: RawMcq)
    requires ValidateMcq(raw).Accepted?
    ensures var m := ValidateMcq(raw).mcq;
      var stated := DifficultyLabel(raw.difficulty);
      var answer := ReconcileAnswer(Strip(raw.answer.value), raw.options.value);
      && (stated in Difficulties ==> m.difficulty == Some(stated))
      && (raw.difficulty.None? ==> m.difficulty == Some("medium"))
      && (stated !in Difficulties ==>
            && (m.difficulty == Some("easy") <==> |Words(m.question)| + |Words(m.answer)| < 20)
            && (m.difficulty == Some("hard") <==> |Words(m.question)| + |Words(m.answer)| >= 40))
      && (answer in m.options ==> m.answer == answer)
  {
    var question := Strip(raw.question.value);
    var options := raw.options.value;
    var answer := ReconcileAnswer(Strip(raw.answer.value), options);
    var fillers := FillerList(question);
    var st := CleanOptions(VagueTerms, options);
    FillerListFacts(question);
    PadAsWrittenHangs(fillers, st);
    var r := PadAsWritten(fillers, st).value;
    PadAsWrittenResult(fillers, st);
    var m := Assemble(question, answer, raw.difficulty, r.kept, r.kept[..4]);
    assert ValidateMcq(raw) == Accepted(m);
    if answer in m.options {
      assert answer in r.kept;
    }
  }

  // ---------------------------------------------------------------------------
  // Findings: the as-written loop can spin, and the final slice can drop the answer
  // ---------------------------------------------------------------------------

  /** The cleaning loop over one more option is one more cleaning pass. */
  lemma CleanOptionsSnoc(terms: seq<string>, xs: seq<string>, x: string)
    ensures CleanOptions(terms, xs + [x]) == CleanStep(terms, CleanOptions(terms, xs), x)
  {
    assert (xs + [x])[..|xs|] == xs;
  }

  /** Options the cleaning loop has no reason to drop or change. */
  predicate AlreadyClean(terms: seq<string>, options: seq<string>) {
    && (forall k :: 0 <= k < |options| ==> options[k] != [] && Stripped(options[k]) && !MentionsAny(Lower(options[k]), terms))
    && DistinctIgnoringCase(options)
  }

  /** A prefix of clean options is clean. */
  lemma AlreadyCleanPrefix(terms: seq<string>, options: seq<string>, n: nat)
    requires n <= |options| && AlreadyClean(terms, options)
    ensures AlreadyClean(terms, options[..n])
  {
    DistinctPrefix(options, n);
    assert forall k :: 0 <= k < n ==> options[..n][k] == options[k];
  }

  /** The last of options distinct ignoring case is new to the forms of the ones before it. */
  lemma LastIsNew(options: seq<string>)
    requires options != [] && DistinctIgnoringCase(options)
    ensures Lower(options[|options| - 1]) !in LowerSet(options[..|options| - 1])
  {
    var n := |options| - 1;
    forall y | y in options[..n] ensures Lower(y) != Lower(options[n]) {
      var i :| 0 <= i < n && options[..n][i] == y;
      assert options[i] == y;
    }
  }

  /** Clean options split into a clean prefix and a last option the cleaning pass keeps. */
  lemma CleanSplit(terms: seq<string>, options: seq<string>)
    requires options != [] && AlreadyClean(terms, options)
    ensures var n := |options| - 1;
      && AlreadyClean(terms, options[..n])
      && Lower(options[n]) !in LowerSet(options[..n])
      && Strip(options[n]) == options[n] != []
      && !MentionsAny(Lower(options[n]), terms)
      && options == options[..n] + [options[n]]
  {
    var n := |options| - 1;
    AlreadyCleanPrefix(terms, options, n);
    LastIsNew(options);
    StripStripped(options[n]);
  }

  /** Options that are already stripped, non-empty, not vague and distinct ignoring case pass through cleaning unchanged. */
  lemma {:induction false} CleanOptionsKeepsClean(terms: seq<string>, options: seq<string>)
    requires AlreadyClean(terms, options)
    ensures CleanOptions(terms, options).kept == options
    decreases |options|
  {
    if options != [] {
      var n := |options| - 1;
      CleanSplit(terms, options);
      CleanOptionsKeepsClean(terms, options[..n]);
      CleanOptionsSnoc(terms, options[..n], options[n]);
      TryAppendConsistent(CleanOptions(terms, options[..n]), options[n]);
    }
  }

  /** Options that strip to nothing after position `n` change nothing. */
  lemma {:induction false} CleanOptionsIgnoresBlank(terms: seq<string>, options: seq<string>, n: nat)
    requires n <= |options|
    requires forall k :: n <= k < |options| ==> Strip(options[k]) == []
    ensures CleanOptions(terms, options) == CleanOptions(terms, options[..n])
    decreases |options|
  {
    if n < |options| {
      var m := |options| - 1;
      CleanOptionsIgnoresBlank(terms, options[..m], n);
      PrefixOfPrefix(options, m, n);
      SplitLast(options);
      CleanOptionsSnoc(terms, options[..m], options[m]);
    } else {
      assert options[..n] == options;
    }
  }

  /** Short lower-case options, distinct and without blanks at the ends, are clean when no term occurs in them. */
  lemma ShortOptionsClean(terms: seq<string>, options: seq<string>)
    requires forall k :: 0 <= k < |options| ==> options[k] != [] && Stripped(options[k]) && NoCapitals(options[k]) && !MentionsAny(options[k], terms)
    requires forall i, j :: 0 <= i < j < |options| ==> options[i] != options[j]
    ensures AlreadyClean(terms, options)
  {
    forall k | 0 <= k < |options| ensures Lower(options[k]) == options[k] {
      LowerNoCapitals(options[k]);
    }
  }

  /** A clean first option followed only by options that strip to nothing is kept on its own. */
  lemma CleanOneThenBlank(terms: seq<string>, options: seq<string>)
    requires options != [] && options[0] != [] && Stripped(options[0]) && !MentionsAny(Lower(options[0]), terms)
    requires forall k :: 1 <= k < |options| ==> Strip(options[k]) == []
    ensures CleanOptions(terms, options).kept == [options[0]]
    ensures Lower(options[0]) in CleanOptions(terms, options).seen
  {
    CleanOptionsIgnoresBlank(terms, options, 1);
    assert options[..1] == [options[0]];
    StripStripped(options[0]);
    assert CleanOptions(terms, [options[0]]).kept == [options[0]];
    assert options[0] in CleanOptions(terms, options).kept;
  }

  /**
   * The only option surviving cleaning is the first, and it equals, ignoring
   * case, the filler at index 1 for the question.
   */
  predicate RepeatsFillerOne(question: string, options: seq<string>) {
    && Strip(question) != [] && |options| >= 4
    && options[0] != [] && Stripped(options[0]) && !IsVague(Lower(options[0]))
    && (forall k :: 1 <= k < |options| ==> Strip(options[k]) == [])
    && Lower(FillerList(Strip(question))[1]) == Lower(options[0])
  }

  /**
   * When the only option surviving cleaning repeats the filler at index 1,
   * the as-written loop asks for that filler again and again and never exits.
   */
  lemma ValidateMcqHangsOnRepeat(question: string, options: seq<string>, difficulty: Option<string>)
    requires RepeatsFillerOne(question, options)
    ensures ValidateMcq(Object(Some(question), Some(options[0]), Some(options), difficulty)) == Hangs
  {
    var raw := Object(Some(question), Some(options[0]), Some(options), difficulty);
    RepeatIsSeen(question, options);
    ValidateMcqHangs(raw);
  }

  /** Under the same conditions, one option is kept and the filler at index 1 is already seen. */
  lemma RepeatIsSeen(question: string, options: seq<string>)
    requires RepeatsFillerOne(question, options)
    ensures var st := CleanOptions(VagueTerms, options);
      |st.kept| == 1 && Lower(FillerList(Strip(question))[1]) in st.seen
  {
    CleanOneThenBlank(VagueTerms, options);
  }

  /**
   * A "when" question whose only surviving option is "1969": the loop asks for
   * the filler at index 1, which is "1969" again, and never exits.
   */
  lemma ValidateMcqHangsExample()
    ensures ValidateMcq(Object(Some("when?"), Some("1969"), Some(["1969", "", "", ""]), None)) == Hangs
  {
    YearThenBlanks(["1969", "", "", ""]);
    YearIsClean();
    WhenQuestionRepeats();
    ValidateMcqHangsOnRepeat("when?", ["1969", "", "", ""], None);
  }

  /** "1969" is a clean option: non-empty, already stripped, and not vague. */
  lemma YearIsClean()
    ensures "1969" != [] && Stripped("1969") && !IsVague(Lower("1969"))
  {
    ShortNotVague("1969");
    LowerNoCapitals("1969");
  }

  /** "1969" followed by three empty options: everything after the first strips to nothing. */
  lemma YearThenBlanks(options: seq<string>)
    requires options == ["1969", "", "", ""]
    ensures |options| >= 4 && options[0] == "1969"
    ensures forall k :: 1 <= k < |options| ==> Strip(options[k]) == []
  {
    assert Strip("") == [];
    forall k | 1 <= k < |options| ensures Strip(options[k]) == [] {
      assert options[k] == "";
    }
  }

  /** The filler at index 1 for "when?" is "1969". */
  lemma WhenQuestionRepeats()
    ensures Strip("when?") != [] && Lower(FillerList(Strip("when?"))[1]) == Lower("1969")
  {
    WhenQuestionFillers();
    StripStripped("when?");
    LowerNoCapitals("1969");
  }

  /** The one-letter options "a" to "e" are already clean. */
  lemma LettersClean(terms: seq<string>)
    requires !MentionsAny("a", terms) && !MentionsAny("b", terms) && !MentionsAny("c", terms)
    requires !MentionsAny("d", terms) && !MentionsAny("e", terms)
    ensures AlreadyClean(terms, ["a", "b", "c", "d", "e"])
  {
    ShortOptionsClean(terms, ["a", "b", "c", "d", "e"]);
  }

  /**
   * When the options are already clean and the answer is one of them at index
   * four or later, the as-written validator accepts the item, keeps the answer
   * as it is, and returns the first four options, which do not include it.
   */
  lemma ValidateMcqDropsLateAnswer(question: string, options: seq<string>, difficulty: Option<string>, k: nat)
    requires Strip(question) != []
    requires AlreadyClean(VagueTerms, options)
    requires 4 <= k < |options|
    ensures var v := ValidateMcq(Object(Some(question), Some(options[k]), Some(options), difficulty));
      v.Accepted? && v.mcq.answer == options[k] && v.mcq.answer !in v.mcq.options
  {
    var answer := options[k];
    var raw := Object(Some(question), Some(answer), Some(options), difficulty);
    StripStripped(answer);
    assert ReconcileAnswer(Strip(answer), options) == answer;
    CleanOptionsKeepsClean(VagueTerms, options);
    var st := CleanOptions(VagueTerms, options);
    assert PadAsWritten(FillerList(Strip(question)), st) == Some(st);
    var m := Assemble(Strip(question), answer, difficulty, options, options[..4]);
    assert ValidateMcq(raw) == Accepted(m);
    LateNotInFirstFour(options, k);
  }

  /** In options distinct ignoring case, one at index four or later is not among the first four. */
  lemma LateNotInFirstFour(options: seq<string>, k: nat)
    requires DistinctIgnoringCase(options) && 4 <= k < |options|
    ensures options[k] !in options[..4]
  {
    forall i | 0 <= i < 4 ensures options[i] != options[k] {
      assert Lower(options[i]) != Lower(options[k]);
    }
  }

  /** Five one-letter options with the answer last: the answer is accepted and then sliced away. */
  lemma ValidateMcqDropsAnswerExample()
    ensures var v := ValidateMcq(Object(Some("q?"), Some("e"), Some(["a", "b", "c", "d", "e"]), Some("easy")));
      v.Accepted? && v.mcq.answer !in v.mcq.options
  {
    ShortNotVague("a");
    ShortNotVague("b");
    ShortNotVague("c");
    ShortNotVague("d");
    ShortNotVague("e");
    LettersClean(VagueTerms);
    StripStripped("q?");
    ValidateMcqDropsLateAnswer("q?", ["a", "b", "c", "d", "e"], Some("easy"), 4);
  }

  // ---------------------------------------------------------------------------
  // The corrected validator
  // ---------------------------------------------------------------------------

  /**
   * The padding loop with the filler index advanced on every pass instead of
   * recomputed from the number of kept options: it tries the indices
   * `index .. stop - 1` until four options are kept.
   */
  function PadFixed(fillers: seq<string>, st: Cleaning, index: nat, stop: nat): Cleaning
    requires |fillers| == 4
    decreases stop - index
  {
    if |st.kept| >= 4 || index >= stop then st
    else PadFixed(fillers, TryAppend(st, fillers[index % 4]), index + 1, stop)
  }

  /** The lower-cased fillers at indices `index .. stop - 1`. */
  function FillersFrom(fillers: seq<string>, index: nat, stop: nat): (r: set<string>)
    requires |fillers| == 4
    ensures stop <= index ==> r == {}
  {
    set k | index <= k < stop :: Lower(fillers[k % 4])
  }

  /** Splitting off the first index of a window of at most four fillers. */
  lemma FillersFromStep(fillers: seq<string>, index: nat, stop: nat)
    requires |fillers| == 4 && DistinctIgnoringCase(fillers)
    requires index < stop <= index + 4
    ensures var f := Lower(fillers[index % 4]);
      && FillersFrom(fillers, index, stop) == FillersFrom(fillers, index + 1, stop) + {f}
      && f !in FillersFrom(fillers, index + 1, stop)
  {
    var f := Lower(fillers[index % 4]);
    forall k | index < k < stop ensures Lower(fillers[k % 4]) != f {
      var a, b := k % 4, index % 4;
      if a < b {
        assert Lower(fillers[a]) != Lower(fillers[b]);
      } else {
        assert Lower(fillers[b]) != Lower(fillers[a]);
      }
    }
  }

  /** Four consecutive indices name four different fillers. */
  lemma FillersFromFour(fillers: seq<string>, index: nat)
    requires |fillers| == 4 && DistinctIgnoringCase(fillers)
    ensures |FillersFrom(fillers, index, index + 4)| == 4
  {
    FillersFromStep(fillers, index, index + 4);
    FillersFromStep(fillers, index + 1, index + 4);
    FillersFromStep(fillers, index + 2, index + 4);
    FillersFromStep(fillers, index + 3, index + 4);
  }

  /** Removing a set from another removes at most as many elements as it has. */
  lemma DifferenceSize(a: set<string>, b: set<string>)
    ensures |a - b| >= |a| - |b|
  {
    assert a == (a - b) + (a * b);
    assert a * b <= b;
  }

  /** The corrected loop keeps its state consistent. */
  lemma {:induction false} PadFixedConsistent(fillers: seq<string>, st: Cleaning, index: nat, stop: nat)
    requires |fillers| == 4 && Consistent(st)
    ensures Consistent(PadFixed(fillers, st, index, stop))
    decreases stop - index
  {
    if |st.kept| < 4 && index < stop {
      TryAppendConsistent(st, fillers[index % 4]);
      PadFixedConsistent(fillers, TryAppend(st, fillers[index % 4]), index + 1, stop);
    }
  }

  /** The corrected loop only appends fillers, and stops at four options. */
  lemma {:induction false} PadFixedAppends(fillers: seq<string>, st: Cleaning, index: nat, stop: nat)
    requires |fillers| == 4
    ensures var r := PadFixed(fillers, st, index, stop);
      && |st.kept| <= |r.kept|
      && (|st.kept| < 4 ==> |r.kept| <= 4)
      && r.kept[..|st.kept|] == st.kept
      && (forall k :: |st.kept| <= k < |r.kept| ==> r.kept[k] in fillers)
    decreases stop - index
  {
    if |st.kept| < 4 && index < stop {
      var filler := fillers[index % 4];
      var next := TryAppend(st, filler);
      PadFixedAppends(fillers, next, index + 1, stop);
      var r := PadFixed(fillers, next, index + 1, stop);
      if next != st {
        assert next.kept == st.kept + [filler];
        assert r.kept[..|st.kept|] == r.kept[..|next.kept|][..|st.kept|];
        assert r.kept[|st.kept|] == r.kept[..|next.kept|][|st.kept|];
      }
    }
  }

  /**
   * One pass of the corrected loop keeps the number of kept options plus the
   * number of unseen fillers left in the window unchanged.
   */
  lemma FillersCountStep(fillers: seq<string>, st: Cleaning, index: nat, stop: nat)
    requires |fillers| == 4 && DistinctIgnoringCase(fillers)
    requires index < stop <= index + 4
    ensures var next := TryAppend(st, fillers[index % 4]);
      |next.kept| + |FillersFrom(fillers, index + 1, stop) - next.seen| == |st.kept| + |FillersFrom(fillers, index, stop) - st.seen|
  {
    var f := Lower(fillers[index % 4]);
    FillersFromStep(fillers, index, stop);
    if f !in st.seen {
      assert FillersFrom(fillers, index + 1, stop) - (st.seen + {f}) == (FillersFrom(fillers, index, stop) - st.seen) - {f};
    } else {
      assert FillersFrom(fillers, index + 1, stop) - st.seen == FillersFrom(fillers, index, stop) - st.seen;
    }
  }

  /**
   * The corrected loop reaches four options whenever the unseen fillers left
   * in its window, with the options already kept, number at least four.
   */
  lemma {:induction false} PadFixedFills(fillers: seq<string>, st: Cleaning, index: nat, stop: nat)
    requires |fillers| == 4 && DistinctIgnoringCase(fillers)
    requires index <= stop <= index + 4
    requires |st.kept| + |FillersFrom(fillers, index, stop) - st.seen| >= 4
    ensures |PadFixed(fillers, st, index, stop).kept| >= 4
    decreases stop - index
  {
    if |st.kept| < 4 && index < stop {
      var next := TryAppend(st, fillers[index % 4]);
      FillersCountStep(fillers, st, index, stop);
      PadFixedFills(fillers, next, index + 1, stop);
      assert PadFixed(fillers, st, index, stop) == PadFixed(fillers, next, index + 1, stop);
    }
  }

  /** The corrected padding always ends with at least four options: clean ones first, then fillers. */
  lemma PadFixedResult(fillers: seq<string>, st: Cleaning)
    requires |fillers| == 4 && DistinctIgnoringCase(fillers)
    requires Consistent(st)
    ensures var r := PadFixed(fillers, st, |st.kept|, |st.kept| + 4);
      && Consistent(r) && |r.kept| >= 4
      && (|st.kept| <= 4 ==> |r.kept| == 4)
      && r.kept[..|st.kept|] == st.kept
      && (forall k :: |st.kept| <= k < |r.kept| ==> r.kept[k] in fillers)
  {
    var n := |st.kept|;
    assert n + |FillersFrom(fillers, n, n + 4) - st.seen| >= 4 by {
      FillersFromFour(fillers, n);
      DifferenceSize(FillersFrom(fillers, n, n + 4), st.seen);
    }
    PadFixedFills(fillers, st, n, n + 4);
    PadFixedAppends(fillers, st, n, n + 4);
    PadFixedConsistent(fillers, st, n, n + 4);
  }

  /** A validated item: `ValidShape`, and the answer is one of the options. */
  predicate WellFormed(m: Mcq) {
    ValidShape(m) && m.answer in m.options
  }

  /**
   * Cleaned options followed by fillers: the first four are the first cleaned
   * options, in order, and then fillers.
   */
  lemma FirstFourInOrder(kept: seq<string>, padded: seq<string>, fillers: seq<string>)
    requires |padded| >= 4 && |kept| <= |padded| && padded[..|kept|] == kept
    requires forall k :: |kept| <= k < |padded| ==> padded[k] in fillers
    ensures var n := if |kept| < 4 then |kept| else 4;
      && padded[..4][..n] == kept[..n]
      && forall k :: n <= k < 4 ==> padded[..4][k] in fillers
  {
    var n := if |kept| < 4 then |kept| else 4;
    assert padded[..4][..n] == padded[..|kept|][..n];
  }

  /**
   * The validator with both defects corrected: padding always terminates, and
   * the answer is reconciled with the four options actually returned.
   */
  function ValidateMcqFixed(raw: RawMcq): (r: Option<Mcq>)
    ensures r.None? <==> RejectsShape(raw)
    ensures r.Some? ==> WellFormed(r.value) && r.value.question == Strip(raw.question.value)
    ensures r.Some? ==> forall k :: 0 <= k < 4 ==> OptionOrigin(r.value.options[k], r.value.question, raw.options.value)
    ensures r.Some? ==> r.value.difficulty == Some(ResolveDifficulty(DifficultyLabel(raw.difficulty), r.value.question, r.value.answer))
    ensures r.Some? ==>
      var answer := ReconcileAnswer(Strip(raw.answer.value), raw.options.value);
      && (answer in r.value.options ==> r.value.answer == answer)
      && (answer !in r.value.options ==> r.value.answer == r.value.options[0])
    ensures r.Some? ==>
      var kept := CleanOptions(VagueTerms, raw.options.value).kept;
      var n := if |kept| < 4 then |kept| else 4;
      && r.value.options[..n] == kept[..n]
      && forall k :: n <= k < 4 ==> r.value.options[k] in FillerList(r.value.question)
  {
    if RejectsShape(raw) then None
    else
      var question := Strip(raw.question.value);
      var options := raw.options.value;
      var answer := ReconcileAnswer(Strip(raw.answer.value), options);
      var fillers := FillerList(question);
      var st := CleanOptions(VagueTerms, options);
      FillerListFacts(question);
      PadFixedResult(fillers, st);
      CleanOptionsKept(VagueTerms, options);
      var r := PadFixed(fillers, st, |st.kept|, |st.kept| + 4);
      PaddedShape(question, options, st, r);
      var four := r.kept[..4];
      FirstFourInOrder(st.kept, r.kept, fillers);
      Some(Assemble(question, answer, raw.difficulty, four, four))
  }

  /**
   * The corrected validator keeps the stated difficulty and the reconciled
   * answer in the same way, and falls back to the first option exactly when
   * the reconciled answer is not among the returned options.
   */
  lemma ValidateMcqFixedKeepsInput(raw: RawMcq)
    requires ValidateMcqFixed(raw).Some?
    ensures var m := ValidateMcqFixed(raw).value;
      var stated := DifficultyLabel(raw.difficulty);
      var answer := ReconcileAnswer(Strip(raw.answer.value), raw.options.value);
      && (stated in Difficulties ==> m.difficulty == Some(stated))
      && (raw.difficulty.None? ==> m.difficulty == Some("medium"))
      && (stated !in Difficulties ==>
            && (m.difficulty == Some("easy") <==> |Words(m.question)| + |Words(m.answer)| < 20)
            && (m.difficulty == Some("hard") <==> |Words(m.question)| + |Words(m.answer)| >= 40))
      && (answer in m.options ==> m.answer == answer)
      && (answer !in m.options ==> m.answer == m.options[0])
  {
    var m := ValidateMcqFixed(raw).value;
    assert m.difficulty == Some(ResolveDifficulty(DifficultyLabel(raw.difficulty), m.question, m.answer));
  }

  /** While the as-written loop makes progress, the corrected loop appends the same fillers. */
  lemma {:induction false} PadFixedFollowsAsWritten(fillers: seq<string>, st: Cleaning, stop: nat)
    requires |fillers| == 4 && |st.kept| < 4 <= stop
    requires PadAsWritten(fillers, st).Some?
    ensures PadFixed(fillers, st, |st.kept|, stop) == PadAsWritten(fillers, st).value
    decreases 4 - |st.kept|
  {
    var next := PadStep(fillers, st);
    assert next != st;
    if |next.kept| < 4 {
      PadFixedFollowsAsWritten(fillers, next, stop);
    }
  }

  /**
   * Where the as-written validator returns and at most four options survive
   * cleaning, the corrected validator returns the same item.
   */
  lemma FixedAgreesWithAsWritten(question: string, answer: string, options: seq<string>, difficulty: Option<string>)
    requires ValidateMcq(Object(Some(question), Some(answer), Some(options), difficulty)).Accepted?
    requires |CleanOptions(VagueTerms, options).kept| <= 4
    ensures var raw := Object(Some(question), Some(answer), Some(options), difficulty);
      ValidateMcqFixed(raw) == Some(ValidateMcq(raw).mcq)
  {
    var raw := Object(Some(question), Some(answer), Some(options), difficulty);
    var q := Strip(question);
    var fillers := FillerList(q);
    var st := CleanOptions(VagueTerms, options);
    var r := PadFixed(fillers, st, |st.kept|, |st.kept| + 4);
    assert PadAsWritten(fillers, st) == Some(r) by {
      if |st.kept| < 4 {
        PadFixedFollowsAsWritten(fillers, st, |st.kept| + 4);
      }
    }
    assert r.kept[..4] == r.kept by {
      FillerListFacts(q);
      PadFixedResult(fillers, st);
    }
    var m := Assemble(q, ReconcileAnswer(Strip(answer), options), difficulty, r.kept, r.kept);
    assert ValidateMcq(raw) == Accepted(m);
    assert ValidateMcqFixed(raw) == Some(m);
  }
}

=== FILE: shorts.dfy ===
/**
 * Short-form narration scripts: `_sanitize_plain_text_script`,
 * `_construct_shorts_prompt`, `_build_fallback_short_script` and the
 * two-attempt acceptance loop of `generate_short_form_script`. The model
 * call is a parameter `respond` from the prompt to the reply text, or to
 * `None` when the call raises.
 */
module Shorts {
  import opened Wrappers
  import opened Text

  // ---------------------------------------------------------------------------
  // _sanitize_plain_text_script
  // ---------------------------------------------------------------------------

  predicate IsAsciiLetter(c: char) {
    'a' <= c <= 'z' || 'A' <= c <= 'Z'
  }

  predicate AllLetters(s: string) {
    forall k :: 0 <= k < |s| ==> IsAsciiLetter(s[k])
  }

  /** The position after the run of ASCII letters starting at `k` (the `[a-zA-Z]*` of the pattern). */
  function LetterRunEnd(s: string, k: nat): (r: nat)
    requires k <= |s|
    ensures k <= r <= |s|
    ensures r < |s| ==> !IsAsciiLetter(s[r])
    decreases |s| - k
  {
    if k < |s| && IsAsciiLetter(s[k]) then LetterRunEnd(s, k + 1) else k
  }

  /** A run of letters followed by a non-letter ends at the non-letter. */
  lemma {:induction false} LetterRunStops(s: string, k: nat, e: nat)
    requires k <= e < |s| && !IsAsciiLetter(s[e])
    requires forall j :: k <= j < e ==> IsAsciiLetter(s[j])
    ensures LetterRunEnd(s, k) == e
    decreases e - k
  {
    if k < e {
      LetterRunStops(s, k + 1, e);
    }
  }

  const Fence: string := "```"

  /**
   * Lines 586-589: a text opening with a fence loses the fence and the
   * language tag after it, and then a closing fence; each step strips.
   */
  function RemoveFence(text: string): (r: string)
    requires Stripped(text)
    ensures Stripped(r)
    ensures !StartsWith(text, Fence) ==> r == text
  {
    if StartsWith(text, Fence) then
      var afterTag := Strip(text[LetterRunEnd(text, 3)..]);
      if EndsWith(afterTag, Fence) then Strip(afterTag[..|afterTag| - 3]) else afterTag
    else text
  }

  /** Lines 590-591: one pair of enclosing double quotes is removed, then the text is stripped. */
  function RemoveQuotes(text: string): (r: string)
    requires Stripped(text)
    ensures Stripped(r)
    ensures !(StartsWith(text, "\"") && EndsWith(text, "\"") && |text| > 1) ==> r == text
  {
    if StartsWith(text, "\"") && EndsWith(text, "\"") && |text| > 1 then Strip(text[1..|text| - 1])
    else text
  }

  /**
   * `_sanitize_plain_text_script`: nothing for a missing or empty reply;
   * otherwise strip, remove a fence and a pair of quotes, and turn every run
   * of blanks into one space.
   */
  function Sanitize(raw: Option<string>): (r: string)
    ensures raw == None || raw == Some("") ==> r == ""
    ensures Normalized(r)
    ensures raw.Some? && raw.value != "" ==> r == JoinWords(Words(RemoveQuotes(RemoveFence(Strip(raw.value)))))
  {
    if raw == None || raw == Some("") then ""
    else
      var text := RemoveQuotes(RemoveFence(Strip(raw.value)));
      CollapseNormalized(text);
      CollapseStripped(text);
      Collapse(text)
  }

  /** Normalized text that opens with no fence and is not quoted passes through unchanged. */
  lemma SanitizePlain(text: string)
    requires Normalized(text) && text != []
    requires !StartsWith(text, Fence) && !(StartsWith(text, "\"") && EndsWith(text, "\""))
    ensures Sanitize(Some(text)) == text
  {
    StripStripped(text);
    CollapseFixes(text);
  }

  /** A fenced reply with a language tag comes back as its body. */
  lemma FenceRemoved(tag: string, body: string)
    requires AllLetters(tag)
    requires body != [] && Stripped(body) && !IsAsciiLetter(body[0])
    ensures RemoveFence(Fence + tag + body + Fence) == body
  {
    var text := Fence + tag + body + Fence;
    assert text[..3] == Fence;
    LetterRunStops(text, 3, 3 + |tag|);
    var after := body + Fence;
    assert text[3 + |tag|..] == after;
    assert Stripped(after);
    StripStripped(after);
    assert after[|after| - 3..] == Fence;
    assert after[..|after| - 3] == body;
    StripStripped(body);
  }

  /** A quoted reply comes back as what is between the quotes. */
  lemma QuotesRemoved(body: string)
    requires Stripped(body)
    ensures RemoveQuotes("\"" + body + "\"") == body
  {
    var text := "\"" + body + "\"";
    assert text[1..|text| - 1] == body;
    StripStripped(body);
  }

  /** A reply with no fence and no enclosing quotes comes back as its words joined by single spaces. */
  lemma SanitizeJoinsWords(t: string)
    requires t != []
    requires !StartsWith(Strip(t), Fence)
    requires !(StartsWith(Strip(t), "\"") && EndsWith(Strip(t), "\"") && |Strip(t)| > 1)
    ensures Sanitize(Some(t)) == JoinWords(Words(Strip(t)))
  {
  }

  /** A fenced reply with a language tag comes back as the words of its body, joined by single spaces. */
  lemma SanitizeFenced(tag: string, body: string)
    requires AllLetters(tag)
    requires body != [] && Stripped(body) && !IsAsciiLetter(body[0])
    requires !(StartsWith(body, "\"") && EndsWith(body, "\"") && |body| > 1)
    ensures Sanitize(Some(Fence + tag + body + Fence)) == JoinWords(Words(body))
  {
    var text := Fence + tag + body + Fence;
    assert text[0] == '`' && text[|text| - 1] == '`';
    StripStripped(text);
    FenceRemoved(tag, body);
    assert RemoveFence(Strip(text)) == body;
    assert RemoveQuotes(body) == body;
  }

  /** A quoted reply comes back as the words between the quotes, joined by single spaces. */
  lemma SanitizeQuoted(body: string)
    requires Stripped(body)
    ensures Sanitize(Some("\"" + body + "\"")) == JoinWords(Words(body))
  {
    var text := "\"" + body + "\"";
    assert text[0] == '"' && text[|text| - 1] == '"';
    StripStripped(text);
    assert !StartsWith(text, Fence) by { assert text[0] != Fence[0]; }
    QuotesRemoved(body);
  }

  // ---------------------------------------------------------------------------
  // _construct_shorts_prompt and _build_fallback_short_script
  // ---------------------------------------------------------------------------

  /** The pieces around the quoted topic in the instructions of lines 560-571. */
  const PlainPieces: seq<string> := [
    "You are a tutor. Explain the topic \"",
    "\" clearly to a beginner. Define what \"",
    "\" is in the first two sentences. Describe how \"",
    "\" works in simple language over the next four sentences. Provide one concrete example of \"",
    "\" in sentences seven through ten. Conclude with an important fact or rule about \"",
    "\" in sentences eleven through fourteen. "
    + "Keep the narration between 120 and 180 words, single paragraph, plain instructional text. "
    + "Do NOT write motivational, reflective, calming, or meta language. "
    + "Do NOT say 'imagine', 'picture', 'remember', 'calm', 'reminder', 'why it matters', or similar phrases. "
    + "Do not use lists, headings, emojis, or rhetorical questions. "
    + "Keep mentioning \"",
    "\" so listeners stay anchored to \"",
    "\"."
  ]

  /** The pieces around the quoted topic in the extra instructions of lines 573-577. */
  const StrictPieces: seq<string> := [
    " Repeat the exact phrase \"",
    "\" in at least three separate sentences and state its definition twice. "
    + "Use shorter sentences and focus on verifiable facts only."
  ]

  /** The pieces with the topic between each two of them, as the f-strings interpolate it. */
  function Fill(pieces: seq<string>, topic: string): (r: string)
    requires |pieces| >= 1
    ensures StartsWith(r, pieces[0])
    ensures |pieces| >= 2 ==> OccursAt(r, topic, |pieces[0]|)
  {
    if |pieces| == 1 then pieces[0]
    else
      var rest := Fill(pieces[1..], topic);
      var r := pieces[0] + topic + rest;
      assert r[..|pieces[0]|] == pieces[0];
      assert r[|pieces[0]|..|pieces[0]| + |topic|] == topic;
      r
  }

  /** `_construct_shorts_prompt`: the strict prompt extends the plain one. */
  function ShortsPrompt(topic: string, strict: bool): (p: string)
    ensures StartsWith(p, PlainPieces[0]) && OccursAt(p, topic, |PlainPieces[0]|)
    ensures strict ==> StartsWith(p, ShortsPrompt(topic, false))
  {
    var plain := Fill(PlainPieces, topic);
    var p := if strict then plain + Fill(StrictPieces, topic) else plain;
    assert p[..|plain|] == plain;
    assert p[..|PlainPieces[0]|] == plain[..|PlainPieces[0]|];
    assert p[|PlainPieces[0]|..|PlainPieces[0]| + |topic|] == plain[|PlainPieces[0]|..|PlainPieces[0]| + |topic|];
    p
  }

  /** The strict prompt is a different prompt: it adds the instructions of lines 573-577. */
  lemma StrictPromptDiffers(topic: string)
    ensures ShortsPrompt(topic, true) != ShortsPrompt(topic, false)
  {
    var plain := Fill(PlainPieces, topic);
    var extra := Fill(StrictPieces, topic);
    assert ShortsPrompt(topic, true) == plain + extra;
    assert ShortsPrompt(topic, false) == plain;
    assert |extra| >= |StrictPieces[0]| > 0;
  }

  const ErrorLead: string := "Error: Unable to generate a Quillium Shorts narration for '"
  const ErrorTail: string := "' right now. Please try again in a moment."

  /** `_build_fallback_short_script`: an error message naming the topic, or "this topic" when it is empty. */
  function ErrorScript(topic: string): (r: string)
    ensures var named := if topic == [] then "this topic" else topic;
      StartsWith(r, ErrorLead) && OccursAt(r, named, |ErrorLead|) && EndsWith(r, ErrorTail)
  {
    var named := if topic == [] then "this topic" else topic;
    var r := ErrorLead + named + ErrorTail;
    assert r[..|ErrorLead|] == ErrorLead;
    assert r[|ErrorLead|..|ErrorLead| + |named|] == named;
    assert r[|r| - |ErrorTail|..] == ErrorTail;
    r
  }

  // ---------------------------------------------------------------------------
  // generate_short_form_script
  // ---------------------------------------------------------------------------

  const BannedPhrases: seq<string> := [
    "calm reminder", "picture", "picture this", "why it matters", "take a breath",
    "walking beside you", "imagine", "remember", "calm", "reminder"
  ]

  /** The test at 520-529, with the banned phrases as a parameter (`BannedPhrases` in the source). */
  predicate Acceptable(script: string, topic: string, banned: seq<string>) {
    && script != []
    && Contains(Lower(script), Lower(topic))
    && 120 <= |Words(script)| <= 180
    && !MentionsAny(Lower(script), banned)
  }

  /** The outcome of one pass of the loop at 506-550. */
  datatype Attempt = Accept(script: string) | Reject | Raise

  /** A prompt builder from the topic and the strict flag (`ShortsPrompt` in the source). */
  type Prompter = (string, bool) -> string

  /** One pass: ask for a script with the plain or strict prompt and test the sanitized reply. */
  function RunAttempt(topic: string, banned: seq<string>, prompt: Prompter, respond: string -> Option<string>, strict: bool): (a: Attempt)
    ensures a.Accept? ==> Acceptable(a.script, topic, banned) && Normalized(a.script)
    ensures a.Accept? ==> exists text :: respond(prompt(topic, strict)) == Some(text) && a.script == Sanitize(Some(text))
    ensures a.Raise? <==> respond(prompt(topic, strict)).None?
  {
    match respond(prompt(topic, strict))
    case None => Raise
    case Some(text) =>
      var script := Sanitize(Some(text));
      if Acceptable(script, topic, banned) then Accept(script) else Reject
  }

  /**
   * The loop at 506-550: at most two passes, the first plain and the second
   * strict; a raised call ends the loop at once (553-555).
   */
  function ShortsLoop(topic: string, banned: seq<string>, prompt: Prompter, respond: string -> Option<string>, strict: bool, attempts: nat): (a: Attempt)
    requires attempts <= 2
    ensures a.Accept? ==> Acceptable(a.script, topic, banned) && Normalized(a.script)
    decreases 2 - attempts
  {
    if attempts == 2 then Reject
    else
      match RunAttempt(topic, banned, prompt, respond, strict)
      case Accept(s) => Accept(s)
      case Raise => Raise
      case Reject => if strict then Reject else ShortsLoop(topic, banned, prompt, respond, true, attempts + 1)
  }

  /** Why no script can be produced. */
  datatype ScriptError = TopicRequired

  /**
   * `generate_short_form_script`: an error for a missing or blank topic;
   * otherwise the first accepted script, or the error script when the key is
   * missing, a call raises, or both passes are rejected.
   */
  function GenerateShortFormScriptWith(topic: Option<string>, hasKey: bool, banned: seq<string>, prompt: Prompter,
                                       respond: string -> Option<string>): (r: Result<string, ScriptError>)
    ensures r.Failure? <==> topic == None || Strip(topic.value) == []
    ensures r.Success? ==> (r.value == ErrorScript(Strip(topic.value))
                            || (Acceptable(r.value, Strip(topic.value), banned) && Normalized(r.value)))
    ensures r.Success? && !hasKey ==> r.value == ErrorScript(Strip(topic.value))
  {
    var t := if topic == None then "" else Strip(topic.value);
    if t == [] then Failure(TopicRequired)
    else
      var fallback := ErrorScript(t);
      if !hasKey then Success(fallback)
      else
        match ShortsLoop(t, banned, prompt, respond, false, 0)
        case Accept(s) => Success(s)
        case _ => Success(fallback)
  }

  /** `generate_short_form_script` with the phrases of lines 487-498 and the prompts of lines 558-579. */
  function GenerateShortFormScript(topic: Option<string>, hasKey: bool, respond: string -> Option<string>): (r: Result<string, ScriptError>)
    ensures r.Failure? <==> topic == None || Strip(topic.value) == []
    ensures r.Success? ==> (r.value == ErrorScript(Strip(topic.value))
                            || (Acceptable(r.value, Strip(topic.value), BannedPhrases) && Normalized(r.value)))
    ensures r.Success? && !hasKey ==> r.value == ErrorScript(Strip(topic.value))
  {
    GenerateShortFormScriptWith(topic, hasKey, BannedPhrases, ShortsPrompt, respond)
  }

  /** The plain prompt is tried first: an acceptable reply to it is returned as it is. */
  lemma PlainReplyFirst(topic: string, banned: seq<string>, prompt: Prompter, respond: string -> Option<string>, text: string)
    requires Strip(topic) != []
    requires respond(prompt(Strip(topic), false)) == Some(text)
    requires Acceptable(Sanitize(Some(text)), Strip(topic), banned)
    ensures GenerateShortFormScriptWith(Some(topic), true, banned, prompt, respond) == Success(Sanitize(Some(text)))
  {
  }

  /** After a rejected plain reply, an acceptable reply to the strict prompt is returned. */
  lemma StrictReplySecond(topic: string, banned: seq<string>, prompt: Prompter, respond: string -> Option<string>,
                          plain: string, strict: string)
    requires Strip(topic) != []
    requires respond(prompt(Strip(topic), false)) == Some(plain)
    requires !Acceptable(Sanitize(Some(plain)), Strip(topic), banned)
    requires respond(prompt(Strip(topic), true)) == Some(strict)
    requires Acceptable(Sanitize(Some(strict)), Strip(topic), banned)
    ensures GenerateShortFormScriptWith(Some(topic), true, banned, prompt, respond) == Success(Sanitize(Some(strict)))
  {
    assert RunAttempt(Strip(topic), banned, prompt, respond, false) == Reject;
  }

  /**
   * At most two prompts are sent: two model stand-ins that agree on the plain
   * and the strict prompt give the same result.
   */
  lemma AtMostTwoPrompts(topic: Option<string>, hasKey: bool, banned: seq<string>, prompt: Prompter,
                         f: string -> Option<string>, g: string -> Option<string>)
    requires topic != None
    requires f(prompt(Strip(topic.value), false)) == g(prompt(Strip(topic.value), false))
    requires f(prompt(Strip(topic.value), true)) == g(prompt(Strip(topic.value), true))
    ensures GenerateShortFormScriptWith(topic, hasKey, banned, prompt, f)
         == GenerateShortFormScriptWith(topic, hasKey, banned, prompt, g)
  {
    var t := Strip(topic.value);
    if t != [] && hasKey {
      LoopAgrees(t, banned, prompt, f, g);
    }
  }

  /** A pass depends on the stand-in only through its reply to the pass's prompt. */
  lemma AttemptAgrees(topic: string, banned: seq<string>, prompt: Prompter,
                      f: string -> Option<string>, g: string -> Option<string>, strict: bool)
    requires f(prompt(topic, strict)) == g(prompt(topic, strict))
    ensures RunAttempt(topic, banned, prompt, f, strict) == RunAttempt(topic, banned, prompt, g, strict)
  {
  }

  /** The loop depends on the stand-in only through its replies to the two prompts. */
  lemma LoopAgrees(topic: string, banned: seq<string>, prompt: Prompter,
                   f: string -> Option<string>, g: string -> Option<string>)
    requires f(prompt(topic, false)) == g(prompt(topic, false))
    requires f(prompt(topic, true)) == g(prompt(topic, true))
    ensures ShortsLoop(topic, banned, prompt, f, false, 0) == ShortsLoop(topic, banned, prompt, g, false, 0)
  {
    AttemptAgrees(topic, banned, prompt, f, g, false);
    AttemptAgrees(topic, banned, prompt, f, g, true);
    assert ShortsLoop(topic, banned, prompt, f, true, 1) == ShortsLoop(topic, banned, prompt, g, true, 1);
  }

  /**
   * A raised call ends the loop at once (553-555): when the plain call raises,
   * the error script comes back whatever the strict prompt would have drawn.
   */
  lemma PlainRaises(topic: string, banned: seq<string>, prompt: Prompter, respond: string -> Option<string>)
    requires Strip(topic) != []
    requires respond(prompt(Strip(topic), false)) == None
    ensures GenerateShortFormScriptWith(Some(topic), true, banned, prompt, respond) == Success(ErrorScript(Strip(topic)))
  {
    assert RunAttempt(Strip(topic), banned, prompt, respond, false) == Raise;
  }

  /** When neither reply is acceptable, the error script is returned. */
  lemma BothRejected(topic: string, banned: seq<string>, prompt: Prompter, respond: string -> Option<string>)
    requires Strip(topic) != []
    requires forall strict: bool :: respond(prompt(Strip(topic), strict)).Some? ==>
      !Acceptable(Sanitize(respond(prompt(Strip(topic), strict))), Strip(topic), banned)
    ensures GenerateShortFormScriptWith(Some(topic), true, banned, prompt, respond) == Success(ErrorScript(Strip(topic)))
  {
    var t := Strip(topic);
    assert !RunAttempt(t, banned, prompt, respond, false).Accept?;
    assert !RunAttempt(t, banned, prompt, respond, true).Accept?;
  }
}

=== FILE: text.dfy ===
/**
 * The handful of Python `str` operations the quiz code relies on, stated over
 * `seq<char>`: whitespace classification, `lower()`, `strip()`, `startswith`,
 * `endswith`, substring `in`, `split()` without arguments, the regular
 * expression substitution `re.sub(r"\s+", " ", s)`, and list slicing `xs[:n]`.
 */
module Text {

  /** Python's `str.isspace()`: the characters `strip()`, `split()` and `\s` treat as blanks. */
  predicate IsSpace(c: char) {
    || c == ' '
    || '\t' <= c <= '\r'
    || '\U{1c}' <= c <= '\U{1f}'
    || c == '\U{85}' || c == '\U{a0}' || c == '\U{1680}'
    || '\U{2000}' <= c <= '\U{200a}'
    || c == '\U{2028}' || c == '\U{2029}' || c == '\U{202f}' || c == '\U{205f}' || c == '\U{3000}'
  }

  predicate AllSpace(s: string) {
    forall k :: 0 <= k < |s| ==> IsSpace(s[k])
  }

  predicate NoSpace(s: string) {
    forall k :: 0 <= k < |s| ==> !IsSpace(s[k])
  }

  /** A string with no blank at either end: what `strip()` produces. */
  predicate Stripped(s: string) {
    s == [] || (!IsSpace(s[0]) && !IsSpace(s[|s| - 1]))
  }

  /** Lower-casing of one character; only the ASCII letters are mapped. */
  function LowerChar(c: char): char {
    if 'A' <= c <= 'Z' then (c as int + 32) as char else c
  }

  /** Python's `str.lower()`, restricted to ASCII letters. */
  function Lower(s: string): (r: string)
    ensures |r| == |s|
    ensures forall k :: 0 <= k < |s| ==> r[k] == LowerChar(s[k])
  {
    seq(|s|, k requires 0 <= k < |s| => LowerChar(s[k]))
  }

  /** No two strings are equal once lower-cased. */
  predicate DistinctIgnoringCase(xs: seq<string>) {
    forall i, j :: 0 <= i < j < |xs| ==> Lower(xs[i]) != Lower(xs[j])
  }

  /** Text with no ASCII capital letter. */
  predicate NoCapitals(s: string) {
    s == [] || (!('A' <= s[0] <= 'Z') && NoCapitals(s[1..]))
  }

  /** Lower-casing leaves text without capitals unchanged. */
  lemma {:induction false} LowerNoCapitals(s: string)
    requires NoCapitals(s)
    ensures Lower(s) == s
  {
    if s != [] {
      LowerNoCapitals(s[1..]);
      assert Lower(s) == [LowerChar(s[0])] + Lower(s[1..]);
    }
  }

  predicate StartsWith(s: string, prefix: string) {
    |prefix| <= |s| && s[..|prefix|] == prefix
  }

  predicate EndsWith(s: string, suffix: string) {
    |suffix| <= |s| && s[|s| - |suffix|..] == suffix
  }

  /** `needle` occurs in `hay` starting at position `k`. */
  predicate OccursAt(hay: string, needle: string, k: int) {
    0 <= k && k + |needle| <= |hay| && hay[k..k + |needle|] == needle
  }

  /** Python's `needle in hay` on strings. */
  predicate Contains(hay: string, needle: string) {
    exists k | 0 <= k <= |hay| - |needle| :: OccursAt(hay, needle, k)
  }

  /** Python's `any(term in text for term in terms)`. */
  predicate MentionsAny(text: string, terms: seq<string>)
    decreases |terms|
  {
    terms != [] && (Contains(text, terms[0]) || MentionsAny(text, terms[1..]))
  }

  /** A text shorter than every term mentions none of them. */
  lemma {:induction false} ShorterThanAll(text: string, terms: seq<string>)
    requires forall t | t in terms :: |text| < |t|
    ensures !MentionsAny(text, terms)
    decreases |terms|
  {
    if terms != [] {
      assert terms[0] in terms;
      ShorterThanAll(text, terms[1..]);
    }
  }

  /** Removes the leading blanks. */
  function TrimLeft(s: string): (r: string)
    ensures |r| <= |s| && r == s[|s| - |r|..]
    ensures r == [] || !IsSpace(r[0])
    ensures AllSpace(s[..|s| - |r|])
    decreases |s|
  {
    if |s| > 0 && IsSpace(s[0]) then TrimLeft(s[1..]) else s
  }

  /** Removes the trailing blanks. */
  function TrimRight(s: string): (r: string)
    ensures |r| <= |s| && r == s[..|r|]
    ensures r == [] || !IsSpace(r[|r| - 1])
    ensures AllSpace(s[|r|..])
    decreases |s|
  {
    if |s| > 0 && IsSpace(s[|s| - 1]) then
      var r := TrimRight(s[..|s| - 1]);
      assert s[|r|..] == s[..|s| - 1][|r|..] + [s[|s| - 1]];
      r
    else s
  }

  /** `r` is `s` with some blanks removed at each end and nothing else changed. */
  predicate TrimmedFrom(s: string, r: string) {
    exists i | 0 <= i <= |s| - |r| :: s[i..i + |r|] == r && AllSpace(s[..i]) && AllSpace(s[i + |r|..])
  }

  /** The first position at or after `k` that is not blank, or `|s|`. */
  function FirstNonBlank(s: string, k: nat): (r: nat)
    requires k <= |s|
    ensures k <= r <= |s|
    ensures r < |s| ==> !IsSpace(s[r])
    decreases |s| - k
  {
    if k < |s| && IsSpace(s[k]) then FirstNonBlank(s, k + 1) else k
  }

  /** The end of `s[lo..k]` once the blanks at its end are dropped. */
  function LastNonBlankEnd(s: string, lo: nat, k: nat): (r: nat)
    requires lo <= k <= |s|
    ensures lo <= r <= k
    ensures lo < r ==> !IsSpace(s[r - 1])
    decreases k
  {
    if lo < k && IsSpace(s[k - 1]) then LastNonBlankEnd(s, lo, k - 1) else k
  }

  /** Python's `str.strip()` without arguments. */
  function Strip(s: string): (r: string)
    ensures Stripped(r)
    ensures |r| <= |s|
  {
    var i := FirstNonBlank(s, 0);
    s[i..LastNonBlankEnd(s, i, |s|)]
  }

  /** The positions `FirstNonBlank` passes over are blanks. */
  lemma {:induction false} SkippedAreBlank(s: string, k: nat)
    requires k <= |s|
    ensures AllSpace(s[k..FirstNonBlank(s, k)])
    decreases |s| - k
  {
    if k < |s| && IsSpace(s[k]) {
      SkippedAreBlank(s, k + 1);
      assert s[k..FirstNonBlank(s, k)] == [s[k]] + s[k + 1..FirstNonBlank(s, k + 1)];
    }
  }

  /** The positions `LastNonBlankEnd` passes over are blanks. */
  lemma {:induction false} DroppedAreBlank(s: string, lo: nat, k: nat)
    requires lo <= k <= |s|
    ensures AllSpace(s[LastNonBlankEnd(s, lo, k)..k])
    decreases k
  {
    if lo < k && IsSpace(s[k - 1]) {
      DroppedAreBlank(s, lo, k - 1);
      assert s[LastNonBlankEnd(s, lo, k)..k] == s[LastNonBlankEnd(s, lo, k - 1)..k - 1] + [s[k - 1]];
    }
  }

  /** `strip()` removes blanks at the two ends of the text and nothing else. */
  lemma StripTrims(s: string)
    ensures TrimmedFrom(s, Strip(s))
  {
    var i := FirstNonBlank(s, 0);
    var j := LastNonBlankEnd(s, i, |s|);
    var r := Strip(s);
    assert r == s[i..j];
    SkippedAreBlank(s, 0);
    assert AllSpace(s[..i]) by { assert s[..i] == s[0..i]; }
    DroppedAreBlank(s, i, |s|);
    assert AllSpace(s[i + |r|..]) by { assert s[i + |r|..] == s[j..|s|]; }
    assert s[i..i + |r|] == r;
  }

  /** Stripping leaves an already stripped string alone. */
  lemma StripStripped(s: string)
    requires Stripped(s)
    ensures Strip(s) == s
  {
    if s != [] {
      assert FirstNonBlank(s, 0) == 0;
      assert LastNonBlankEnd(s, 0, |s|) == |s|;
    }
  }

  /** Length of the run of non-blank characters at the front of `s`. */
  function WordLength(s: string): (n: nat)
    ensures n <= |s|
    ensures NoSpace(s[..n])
    ensures n == |s| || IsSpace(s[n])
    decreases |s|
  {
    if |s| == 0 || IsSpace(s[0]) then 0 else 1 + WordLength(s[1..])
  }

  /** A non-empty run of non-blank characters. */
  predicate IsWord(w: string) {
    |w| > 0 && NoSpace(w)
  }

  /** Python's `str.split()` without arguments: the maximal runs of non-blank characters. */
  function Words(s: string): seq<string>
    decreases |s|
  {
    if s == [] then []
    else if IsSpace(s[0]) then Words(TrimLeft(s))
    else
      var n := WordLength(s);
      [s[..n]] + Words(s[n..])
  }

  /** Every piece `split()` yields is a word. */
  lemma {:induction false} WordsAreWords(s: string)
    ensures forall k :: 0 <= k < |Words(s)| ==> IsWord(Words(s)[k])
    decreases |s|
  {
    if s != [] && IsSpace(s[0]) {
      WordsAreWords(TrimLeft(s));
    } else if s != [] {
      var n := WordLength(s);
      WordsAreWords(s[n..]);
      var ws := Words(s);
      forall k | 0 <= k < |ws| ensures IsWord(ws[k]) {
        if k > 0 {
          assert ws[k] == Words(s[n..])[k - 1];
        }
      }
    }
  }

  /** `split()` finds no word exactly when the text is all blanks. */
  lemma WordsEmptyIffBlank(s: string)
    ensures Words(s) == [] <==> AllSpace(s)
  {
    if s == [] {
    } else if IsSpace(s[0]) {
      var r := TrimLeft(s);
      assert Words(s) == Words(r);
      if r == [] {
        assert s[..|s|] == s;
      } else {
        var n := WordLength(r);
        assert Words(r) == [r[..n]] + Words(r[n..]);
        assert s[|s| - |r|] == r[0];
      }
    } else {
      var n := WordLength(s);
      assert Words(s) == [s[..n]] + Words(s[n..]);
    }
  }

  /** Python's `" ".join(ws)`. */
  function JoinWords(ws: seq<string>): string
  {
    if |ws| == 0 then ""
    else if |ws| == 1 then ws[0]
    else ws[0] + " " + JoinWords(ws[1..])
  }

  /**
   * Python's `re.sub(r"\s+", " ", s)`: every maximal run of blanks becomes a
   * single space, and the text between runs is copied.
   */
  function Collapse(s: string): string
    decreases |s|
  {
    if s == [] then []
    else if IsSpace(s[0]) then " " + Collapse(TrimLeft(s))
    else
      var n := WordLength(s);
      s[..n] + Collapse(s[n..])
  }

  /** Text whose only blanks are single spaces between words. */
  predicate Normalized(t: string) {
    && Stripped(t)
    && (forall k :: 0 <= k < |t| && IsSpace(t[k]) ==> t[k] == ' ')
    && (forall k :: 0 <= k < |t| - 1 && IsSpace(t[k]) ==> !IsSpace(t[k + 1]))
  }

  /** The blank `re.sub` leaves at the end of `s` when `s` ends in blanks. */
  function TrailingBlank(s: string): string {
    if |s| > 0 && IsSpace(s[|s| - 1]) then " " else ""
  }

  /** Concatenation is associative. */
  lemma AppendAssoc4(a: string, b: string, c: string, d: string)
    ensures a + (b + (c + d)) == ((a + b) + c) + d
  {
  }

  /**
   * The substitution turns text without leading blanks into its words joined
   * by single spaces, plus one space when the text ends in blanks.
   */
  lemma {:induction false} CollapseIsJoin(s: string)
    requires s == [] || !IsSpace(s[0])
    ensures Collapse(s) == JoinWords(Words(s)) + TrailingBlank(s)
    decreases |s|
  {
    if s != [] {
      var n := WordLength(s);
      var w, rest := s[..n], s[n..];
      if rest == [] {
        assert w == s;
        assert Collapse(rest) == [];
      } else {
        var u := TrimLeft(rest);
        CollapseIsJoin(u);
        if u == [] {
          CollapseBeforeEnd(s, n);
        } else {
          CollapseBeforeWord(s, n, u);
        }
      }
    }
  }

  /** When only blanks follow position `n`, the text ends in a blank. */
  lemma BlankTail(s: string, n: nat)
    requires n < |s| && TrimLeft(s[n..]) == []
    ensures IsSpace(s[|s| - 1])
  {
    var rest := s[n..];
    var t := TrimLeft(rest);
    assert AllSpace(rest[..|rest| - |t|]) && |t| == 0;
    assert rest[..|rest| - |t|][|rest| - 1] == s[|s| - 1];
  }

  /** A word followed only by blanks collapses to the word and one space. */
  lemma CollapseWordThenBlanks(s: string, n: nat)
    requires 0 < n < |s| && n == WordLength(s) && !IsSpace(s[0]) && TrimLeft(s[n..]) == []
    ensures Collapse(s) == s[..n] + " "
  {
    var rest := s[n..];
    assert IsSpace(rest[0]);
    assert Collapse(rest) == " " + Collapse(TrimLeft(rest));
  }

  /** A word followed only by blanks splits into that word. */
  lemma WordsWordThenBlanks(s: string, n: nat)
    requires 0 < n < |s| && n == WordLength(s) && !IsSpace(s[0]) && TrimLeft(s[n..]) == []
    ensures Words(s) == [s[..n]]
  {
    var rest := s[n..];
    assert IsSpace(rest[0]);
    assert Words(rest) == Words(TrimLeft(rest));
  }

  /** The step of `CollapseIsJoin` when only blanks follow the first word. */
  lemma CollapseBeforeEnd(s: string, n: nat)
    requires 0 < n < |s| && n == WordLength(s) && !IsSpace(s[0]) && TrimLeft(s[n..]) == []
    ensures Collapse(s) == JoinWords(Words(s)) + TrailingBlank(s)
  {
    BlankTail(s, n);
    CollapseWordThenBlanks(s, n);
    WordsWordThenBlanks(s, n);
    assert JoinWords([s[..n]]) == s[..n];
  }

  /** The step of `CollapseIsJoin` when another word follows the blanks after the first word. */
  lemma CollapseBeforeWord(s: string, n: nat, u: string)
    requires 0 < n < |s| && n == WordLength(s) && !IsSpace(s[0])
    requires u == TrimLeft(s[n..]) && u != []
    requires Collapse(u) == JoinWords(Words(u)) + TrailingBlank(u)
    ensures Collapse(s) == JoinWords(Words(s)) + TrailingBlank(s)
  {
    var w := s[..n];
    assert Collapse(s) == w + (" " + Collapse(u));
    assert Words(s) == [w] + Words(u);
    assert u[|u| - 1] == s[|s| - 1];
    assert Words(u) != [];
    assert ([w] + Words(u))[1..] == Words(u);
    AppendAssoc4(w, " ", JoinWords(Words(u)), TrailingBlank(u));
  }

  /** On stripped text the substitution is exactly `" ".join(s.split())`. */
  lemma CollapseStripped(s: string)
    requires Stripped(s)
    ensures Collapse(s) == JoinWords(Words(s))
  {
    CollapseIsJoin(s);
    if s != [] {
      assert !IsSpace(s[|s| - 1]);
    }
  }

  /** Words joined by single spaces form normalized text. */
  lemma {:induction false} JoinWordsNormalized(ws: seq<string>)
    requires forall k :: 0 <= k < |ws| ==> IsWord(ws[k])
    ensures Normalized(JoinWords(ws))
    ensures |ws| > 0 ==> JoinWords(ws) != [] && JoinWords(ws)[0] == ws[0][0]
  {
    if |ws| > 1 {
      JoinWordsNormalized(ws[1..]);
      var w, t := ws[0], JoinWords(ws[1..]);
      var j := w + " " + t;
      assert j == JoinWords(ws);
      assert forall k :: 0 <= k < |w| ==> j[k] == w[k];
      forall k | |w| <= k < |j| && IsSpace(j[k])
        ensures j[k] == ' ' && (k < |j| - 1 ==> !IsSpace(j[k + 1]))
      {
        if k > |w| {
          assert j[k] == t[k - |w| - 1];
          if k < |j| - 1 {
            assert j[k + 1] == t[k - |w|];
          }
        } else {
          assert j[k + 1] == t[0];
        }
      }
      assert j[|j| - 1] == t[|t| - 1];
    }
  }

  /** The substitution applied to stripped text yields normalized text. */
  lemma CollapseNormalized(s: string)
    requires Stripped(s)
    ensures Normalized(Collapse(s))
    ensures s != [] ==> Collapse(s) != []
  {
    CollapseStripped(s);
    WordsAreWords(s);
    JoinWordsNormalized(Words(s));
    if s != [] {
      assert Words(s) != [] by { assert TrimLeft(s) == s; }
    }
  }

  /** Text whose blanks are single spaces, never two in a row, and not at the end. */
  predicate SingleSpaced(t: string) {
    && (forall k :: 0 <= k < |t| && IsSpace(t[k]) ==> t[k] == ' ')
    && (forall k :: 0 <= k < |t| - 1 && IsSpace(t[k]) ==> !IsSpace(t[k + 1]))
    && (t == [] || !IsSpace(t[|t| - 1]))
  }

  lemma SplitAt(t: string, n: nat)
    requires n <= |t|
    ensures t[..n] + t[n..] == t
  {
  }

  lemma SplitFirst<T>(xs: seq<T>)
    requires xs != []
    ensures xs == [xs[0]] + xs[1..]
  {
  }

  lemma SplitLast<T>(xs: seq<T>)
    requires xs != []
    ensures xs == xs[..|xs| - 1] + [xs[|xs| - 1]]
  {
  }

  lemma PrefixOfPrefix<T>(xs: seq<T>, m: nat, n: nat)
    requires n <= m <= |xs|
    ensures xs[..m][..n] == xs[..n]
  {
  }

  lemma SingleSpacedSuffix(t: string, n: nat)
    requires SingleSpaced(t) && n <= |t|
    ensures SingleSpaced(t[n..])
  {
    var u := t[n..];
    assert forall k :: 0 <= k < |u| ==> u[k] == t[n + k];
  }

  /** The substitution leaves single-spaced text unchanged. */
  lemma {:induction false} CollapseFixes(t: string)
    requires SingleSpaced(t)
    ensures Collapse(t) == t
    decreases |t|
  {
    if t != [] && IsSpace(t[0]) {
      CollapseFixesBlank(t);
    } else if t != [] {
      var n := WordLength(t);
      SingleSpacedSuffix(t, n);
      CollapseFixes(t[n..]);
      SplitAt(t, n);
    }
  }

  /** The case of `CollapseFixes` where the text starts with its single space. */
  lemma {:induction false} CollapseFixesBlank(t: string)
    requires SingleSpaced(t) && t != [] && IsSpace(t[0])
    ensures Collapse(t) == t
    decreases |t|, 0
  {
    var u := t[1..];
    assert t[0] == ' ' && u != [] && !IsSpace(u[0]) by {
      assert |t| >= 2 && u[0] == t[1];
    }
    assert Collapse(t) == " " + Collapse(u) by {
      assert TrimLeft(u) == u;
      assert TrimLeft(t) == u;
    }
    SingleSpacedSuffix(t, 1);
    CollapseFixes(u);
    SplitFirst(t);
  }

  /** Python's list slice `xs[:n]`, including the meaning of a negative bound. */
  function Take<T>(xs: seq<T>, n: int): (r: seq<T>)
    ensures |r| <= |xs| && r == xs[..|r|]
    ensures n >= 0 ==> |r| == if n < |xs| then n else |xs|
    ensures n < 0 ==> |r| == if |xs| + n > 0 then |xs| + n else 0
  {
    if n >= 0 then (if n < |xs| then xs[..n] else xs)
    else if |xs| + n > 0 then xs[..|xs| + n]
    else []
  }
}

=== FILE: wrappers.dfy ===
/** `Option` and `Result`: absent values and outcomes that may fail, used across the model. */
module Wrappers {

  /** A value that may be absent: a JSON key that is missing, a search with no hit. */
  datatype Option<T> = None | Some(value: T) {

    /** The wrapped value, or `default` when absent (Python's `dict.get(key, default)`). */
    function GetOr(default: T): T {
      match this
      case Some(v) => v
      case None => default
    }
  }

  /** The outcome of an operation that may raise. */
  datatype Result<T, E> = Success(value: T) | Failure(error: E)
}
